=== FILE: README.md ===
# ORPI visit report, modelled in Dafny

The application is a single Streamlit page, `app.py`. A property manager uses it
to record a visit of a co-owned building: general fields, a main photo, a list
of observations (positive, or "to improve"), each with a description, up to
three photos and an optional action, and a drawn signature. From these it
builds a PDF report with FPDF.

This project models the decisions that page makes and proves properties of
them. There are four modules, and a fifth holds the option type:

- `Sanitizer` (`sanitizer.dfy`) models `clean_text_for_pdf`. Its substitution
  table is an explicit sequence of pairs. Each pair is applied with the exact
  semantics of Python's `str.replace`, and every remaining non-ASCII character
  becomes a space. Proved: the output is ASCII; characters no entry mentions
  keep their order for any table; with one-character keys, as in the
  corrected table, every ASCII character stays in place and the text is
  cleaned part by part; and cleaning is idempotent whenever every key either
  maps to itself or holds a non-ASCII character.
- `Orientation` (`orientation.dfy`) models the angle `fix_image_rotation`
  picks from the outcome of reading the EXIF block and from the decoded size.
- `Layout` (`layout.dfy`) models the FPDF cursor `(page, y)` through
  `create_pdf`:
  - the information page, the main photo, the observations banner;
  - per observation: heading, texts, photos and the closing page-break rule;
  - the signature page.

  Page breaks follow the rules of PyFPDF 1.7.2, whose `output(dest='S')`
  returns the `str` that app.py:470 encodes to Latin-1: a top margin of
  28.35 pt = 10.00125 mm, the 20 mm header, and an automatic break when a text
  line would end below 297.00008 - 2 · 10.00125 = 276.99758 mm. The model keeps
  whole millimetres. On every page opened by `add_page` the real y is
  0.00125 mm below the kept value, so the program's tests become: a text row
  breaks when y + height ≥ 277, a photo moves when y ≥ 200, and an observation
  is closed by a new page when y ≥ 250 (`Layout.BreakTrigger` = 276,
  `Layout.PhotoBreakY` = 199, `Layout.EntryBreakY` = 249).
- `Guards` (`guards.dfy`) models the observation form's checks and the report
  button's checks.
- `Wrappers` (`wrappers.dfy`) holds `Option`, the model's `None`.

How many lines `multi_cell` wraps a text into depends on font metrics, so the
layout takes that count as a function parameter (`Layout.LineCount`).

Where the code's comments and its statements differ, the model follows the
statements:
- The comment at app.py:38 presents the size rule as the case of a picture
  without EXIF information. The rule sits in the `except` branch
  (app.py:37-40), so it applies only when reading the EXIF block raises; a
  `None` result turns nothing (`Orientation.RotationAngle`).
- The comments at app.py:93-94 show that the quote entries stand for
  typographic apostrophes, but the literal keys at app.py:56-59 and 89 are an
  ASCII apostrophe and one triple-quoted string; see Findings.

The layout sanitises with the corrected table (`Sanitizer.CleanTextForPdf`),
as the first Findings row explains; app.py:263 calls the function with the
table as written (`Sanitizer.CleanAsWritten`). The only place the sanitised
text decides anything in the model is the observation label, and there the two
tables agree: on both radio options of app.py:398, which are the only kinds the
form produces (`Layout.OptionLabelsAgree`), on every check-mark kind over
ASCII text that mentions "Positive" (`Layout.CheckMarkLabelsAgree`) and on
every kind without a capital P (`Layout.NoCapitalPLabelsAgree`).

## Model

| member | source | states |
|---|---|---|
| `Sanitizer.Replace` | app.py:101 | `str.replace` with a non-empty key and a replacement no longer than the key never lengthens the text. With a replacement at least as long as the key, including the empty key that Python inserts everywhere, it never shortens the text. |
| `Sanitizer.ReplaceAll` | app.py:100-101 | Applying the table entry by entry keeps those length bounds: no entry lengthens, so the text does not grow; no entry shortens, so the text does not shrink. |
| `Sanitizer.CleanAsWritten` | app.py:50-105 | `clean_text_for_pdf` with the table as written returns pure ASCII for every input. |
| `Sanitizer.CleanTextForPdf` | app.py:50-105 | The corrected sanitiser returns pure ASCII for every input. |
| `Sanitizer.BlankNonAscii` | app.py:103-104 | Same length; ASCII characters are kept at their position, every other character becomes a space; the result is ASCII and ASCII input is returned unchanged. |
| `Sanitizer.Clean` | app.py:50-105 | Whatever the table and the text, the sanitised text is pure ASCII. |
| `Sanitizer.ReplaceAbsent` | app.py:100-101 | Replacing a key that does not occur in the text leaves the text unchanged. |
| `Sanitizer.ReplaceSelf` | app.py:100-101 | Replacing a key by itself (the `"'": "'"` entries) leaves the text unchanged. |
| `Sanitizer.ForeignCharNotOccurs` | app.py:100-101 | A key with a character the text lacks does not occur in the text. |
| `Sanitizer.CleanKeepsOthers` | app.py:99-104 | For any table, the table as written included: ASCII characters other than the space that no key or value mentions come out exactly as they went in, in the same order. |
| `Sanitizer.CleanAppend` | app.py:99-104 | When every key is one character long, cleaning a concatenation is the concatenation of the cleaned parts. |
| `Sanitizer.CleanKeepsAsciiInPlace` | app.py:99-104 | When every key is one character long and the idempotence condition holds, an ASCII character comes out unchanged, between the cleaned text before it and the cleaned text after it. |
| `Sanitizer.CorrectedTableKeys` | app.py:54-98 | Every key of the corrected table is one character outside ASCII. |
| `Sanitizer.CleanTextForPdfAppend` | app.py:50-105 | The sanitiser the model uses cleans a concatenation part by part. |
| `Sanitizer.CleanTextForPdfKeepsAscii` | app.py:50-105 | Order preservation for the sanitiser the model uses: every ASCII character survives in place, so ASCII text such as "Hall propre" keeps every letter in order. |
| `Sanitizer.ReplaceKeepsOccurrence` | app.py:100-101 | An occurrence of a word survives `str.replace` of a non-empty key that shares no character with it. |
| `Sanitizer.ReplaceAllFixesAscii` | app.py:99-101 | When every key maps to itself or holds a non-ASCII character, the replacement loop leaves ASCII text unchanged. |
| `Sanitizer.CleanIdempotent` | app.py:50-105 | Under that condition on the table, cleaning twice equals cleaning once. |
| `Sanitizer.LetterTableKeys` | app.py:60-92 | Every accented-letter and symbol key is one non-ASCII character. |
| `Sanitizer.CorrectedTableStable` | app.py:53-98 | The corrected table meets the idempotence condition. |
| `Sanitizer.CleanTextForPdfIdempotent` | app.py:50-105 | The sanitiser the model uses is idempotent on every input. |
| `Sanitizer.CorrectedTableLeavesP` | app.py:53-98 | No key or value of the table contains a capital P. |
| `Sanitizer.CheckMarkClean` | app.py:54 | With the corrected table, a check mark in front of ASCII text becomes `+`, and nothing else changes. |
| `Sanitizer.CheckMarkCleanAsWritten` | app.py:53-104 | With the table as written, a check mark in front of ASCII text becomes `+`, and the rest changes only where it holds the triple-quoted key, which becomes `"`; without that key nothing else changes. |
| `Sanitizer.AsWrittenFixesAsciiWithoutQuoteKey` | app.py:53-104 | With the table as written, ASCII text that does not contain the triple-quoted key comes out unchanged. |
| `Sanitizer.AsWrittenKeepsAsciiInPlace` | app.py:53-104 | With the table as written, an ASCII character that is not part of the triple-quoted key (so not `:`, a space, `'`, `"`, `,` or a line feed) comes out unchanged, between the cleaned text before it and the cleaned text after it. |
| `Sanitizer.CleanAround` | app.py:99-104 | For any table whose keys are non-empty and leave out an ASCII character, that character comes out in place between the cleaned text before it and after it, whatever the keys' lengths. |
| `Sanitizer.ReplaceAround` | app.py:100-101 | `str.replace` with a non-empty key never matches across a character the key lacks: that character stays between the replaced text before it and after it. |
| `Sanitizer.AsWrittenTableLeavesP` | app.py:53-98 | No key or value of the table as written contains a capital P. |
| `Sanitizer.AsWrittenTableNotStable` | app.py:58-59 | The table as written has an ASCII key that is not mapped to itself, so it breaks the idempotence condition. |
| `Sanitizer.AsWrittenFirstPass` | app.py:58-59 | Cleaning the text `NotIdempotentInput` with the table as written yields exactly the triple-quoted key. |
| `Sanitizer.AsWrittenSecondPass` | app.py:58-59 | Cleaning that key again with the table as written yields `"`. |
| `Sanitizer.AsWrittenNotIdempotent` | app.py:53-105 | The table as written is not idempotent: for `NotIdempotentInput`, cleaning twice differs from cleaning once. |
| `Orientation.RotationAngle` | app.py:22-45 | The angle applied is always 0, 90, 180 or 270. A `None` EXIF result gives 0. After a failed read, the angle is 270 exactly for a portrait picture and 0 for every other one. |
| `Orientation.TagsDecideAngle` | app.py:28-36 | With a tag dictionary, Orientation 3, 6 and 8 give 180, 270 and 90. Any other value, or no tag, gives 0. The size plays no part. |
| `Orientation.SizeHeuristicOnlyOnRaise` | app.py:26-40 | If swapping width and height changes the angle, then the EXIF read raised and the picture is not square. |
| `Orientation.FallbackNeverPortrait` | app.py:37-40 | After a failed read, a picture is turned 270 exactly when it is portrait and not at all otherwise, so the result is never portrait. |
| `Orientation.NormalizedSize` | app.py:31-40 | The returned picture has the decoded size or its transpose. After a failed EXIF read it is never portrait. |
| `Orientation.NormalizedSizeCases` | app.py:31-36 | Orientation 1 and 3 keep the size; 6 and 8 swap width and height. |
| `Orientation.RotationUndoesTag` | app.py:31-36 | For Orientation 1, 3, 6 and 8, the counter-clockwise angle applied is the clockwise correction the tag asks for: 360 minus the angle equals `ClockwiseTurn` of the value, modulo 360. |
| `Layout.AddPage` | app.py:150-170 | `add_page` with the header moves to the next page and leaves the cursor on a real page at or below the page top (y = 30). |
| `Layout.Ln` | app.py:275 | `ln` stays on the page and never moves the cursor up, so a settled cursor stays settled. |
| `Layout.Cell` | app.py:272-278 | A text row stays on its page exactly when y + height is at most 276, that is, when it ends above FPDF's 276.99758 trigger. Then it moves y by its height. Otherwise it opens exactly one new page and ends at 30 + height. |
| `Layout.MultiCell` | app.py:284 | A wrapped text of n lines adds at most n pages. |
| `Layout.MultiCellLast` | app.py:284 | A text of n + 1 lines is the text of n lines followed by one more row. |
| `Layout.MultiCellFits` | app.py:284 | A wrapped text whose end y + n·height is at most 276 stays on the page and moves y by n·height. |
| `Layout.InfoPage` | app.py:170-224 | The information rows end at y = 85 on page 1 when nobody is listed as present. |
| `Layout.InfoPageWithPersons` | app.py:218-224 | Up to 23 lines of persons present still fit on page 1, ending at 85 + 8·lines. |
| `Layout.InfoPageOverflows` | app.py:218-224 | A 24th line would end at 277, past the trigger, so 24 lines end on page 2 at y = 38. |
| `Layout.MainPhotoSize` | app.py:235-239 | The main photo is 190 wide and its height·width = 190·height, which keeps the aspect ratio. |
| `Layout.PlaceMainPhoto` | app.py:227-239 | The main photo goes on the current page at y = 120, with the aspect ratio of the rotated picture. |
| `Layout.ObservationsStart` | app.py:245-249 | The banner opens a new page and leaves the cursor at y = 40. |
| `Layout.KindLabel` | app.py:263-264 | The label is "Positive" exactly when the kind, sanitised with the corrected table, contains "Positive", and "A améliorer" otherwise. |
| `Layout.KindLabelAsWritten` | app.py:263-264 | The same test with the table as written, as the file runs it. |
| `Layout.LabelColour` | app.py:265-268 | Green (0,150,0) exactly for "Positive", red (200,0,0) for every other label. |
| `Layout.EntryHeading` | app.py:263-272 | The heading of observation `index` is numbered index + 1, and it is green exactly when the sanitised kind contains "Positive". |
| `Layout.EntryHeadings` | app.py:252-272 | Heading i is numbered i + 1 and is either green "Positive" or red "A améliorer", as the kind of observation i decides. |
| `Layout.CheckMarkKindIsGreen` | app.py:263-268 | A kind made of a check mark and ASCII text containing "Positive" gets a green "Positive" heading. |
| `Layout.KindWithoutCapitalPIsRed` | app.py:263-268 | A kind without a capital P gets a red "A améliorer" heading. |
| `Layout.PositiveOptionIsGreen` | app.py:398 | The radio option "✅ Positive" gets a green "Positive" heading. |
| `Layout.ImproveOptionIsRed` | app.py:398 | The radio option "❌ A améliorer" gets a red "A améliorer" heading. |
| `Layout.CheckMarkLabelsAgree` | app.py:263-264 | A kind made of a check mark and ASCII text containing "Positive" is labelled "Positive" with either table. |
| `Layout.NoCapitalPNoPositive` | app.py:263-264 | A table without a capital P cannot produce "Positive" from text without one. |
| `Layout.NoCapitalPLabelsAgree` | app.py:263-264 | A kind without a capital P is labelled "A améliorer" with either table. |
| `Layout.OptionLabelsAgree` | app.py:398 | Both radio options get the same label with either table: "Positive" for "✅ Positive", "A améliorer" for "❌ A améliorer". |
| `Layout.EntryText` | app.py:254-298 | The text part of an observation never moves to an earlier page, and it keeps the cursor on a real page below the header. |
| `Layout.PhotosTitle` | app.py:301-304 | Without photos the cursor does not move. |
| `Layout.PlacePhoto` | app.py:312-318 | A photo goes where the cursor is when y ≤ 199, otherwise (FPDF's y above 200) at the top of a new page. Its top is at most 199, and the cursor then moves 210 down. |
| `Layout.PlacePhotos` | app.py:306-321 | One placement per photo, each at y ≤ 199 and between the starting and final pages. When the starting y ≥ 0, each photo after the first is at the top of the next page. |
| `Layout.PhotoAtBoundaryMoves` | app.py:312-314 | A photo with the cursor at exactly 200 (200.00125 in FPDF) goes to the top of the next page. |
| `Layout.PhotosOnSeparatePages` | app.py:312-318 | Any two photos of one observation are on different pages, the later one on a later page. |
| `Layout.CloseEntry` | app.py:323-325 | A new page is added exactly when y ≥ 250 (FPDF's y above 250), and y is at most 249 afterwards. |
| `Layout.LayoutEntry` | app.py:252-325 | One observation has one placement per photo, within its own pages. Consecutive photos are on consecutive pages. The closing rule is applied last. Its pages never go back. |
| `Layout.LayoutEntries` | app.py:252 | One entry per observation. The first starts at the loop's cursor and the last ends at the cursor after the loop. The page never decreases. |
| `Layout.EntriesChained` | app.py:252 | Every observation starts where the previous one ended. |
| `Layout.EntryFollowsObservation` | app.py:252-325 | Entry i has the shape of observation i: its photo count, the closing rule, and page order. |
| `Layout.EntryEndingAt250AddsPage` | app.py:252-325 | An observation under the banner with 10 description lines, 10 action lines and no photo reaches the closing rule at exactly y = 250, and the rule opens page 3. |
| `Layout.SecondPhotoAtBoundary` | app.py:252-321 | Two observations of 3 description lines each: the second one's photo is reached at exactly y = 200 and goes to the top of page 3. |
| `Layout.ValidationBlock` | app.py:328-336 | On a fresh page, the validation block ends at y = 60. |
| `Layout.CreatePdf` | app.py:148-348 | A report is built exactly when every picture can be processed. It has at least 3 pages. The signature page is the last page and comes after the observations banner. There is one entry and one heading per observation. There is a main photo exactly when one was given. A given signature is on the last page at y = 70. |
| `Layout.ReportFollowsObservations` | app.py:245-328 | In a built report the first observation starts under the banner and each one starts where the previous one ended. Each has the shape of its observation. The last one ends on the page before the signature page. |
| `Layout.ReportHeadings` | app.py:252-272 | In a built report, heading i is numbered i + 1 and is green exactly when the sanitised kind contains "Positive". |
| `Layout.ShortVisitThreePages` | app.py:168-348 | With no persons present, and one observation of at most 22 description lines with no photo and no action, the report has exactly 3 pages. The main photo is on page 1 and the signature on page 3 at y = 70. |
| `Layout.LongObservationLeavesEmptyPage` | app.py:323-328 | The same visit with 23 to 27 description lines ends at y ≥ 250, so the closing rule and the signature page each add a page: the report has 4 pages and page 3 is empty. |
| `Guards.AsEntry` | app.py:410-415 | An accepted submission is stored with its four fields unchanged. |
| `Guards.Submit` | app.py:407-422 | An observation is appended exactly when the description is non-empty and there are at most 3 photos. An empty description is the reported reason first. Earlier entries are never changed. |
| `Guards.SubmitAll` | app.py:407-422 | A series of submissions adds at most one observation per submission and keeps the starting list as a prefix. |
| `Guards.AcceptedEntries` | app.py:407-422 | The accepted submissions, at most one entry each, all have a description and at most 3 photos. |
| `Guards.SubmitAllAppendsAccepted` | app.py:407-422 | After any series of submissions, the list is the starting list followed by exactly the accepted submissions, in order. |
| `Guards.SubmitAllKeepsAcceptable` | app.py:407-422 | Every stored observation has a description and at most 3 photos. |
| `Guards.GenerateAsWritten` | app.py:369-386 | As written, pressing the button with address and building code filled in but no main photo crashes. Without both fields it only warns. |
| `Guards.AsWrittenCrashesWithoutMainPhoto` | app.py:443-444 | A concrete form where the as-written button crashes and the corrected button generates a report. |
| `Guards.Generate` | app.py:442-486 | The corrected button never crashes. It generates a report exactly when address, building code and signature are present. It asks for a signature exactly when only the signature is missing. |
| `Guards.GenerateAgreesUnlessCrashed` | app.py:442-486 | Wherever the as-written button does not crash, the corrected one behaves the same. |
| `Guards.GeneratedReportIsSigned` | app.py:459-483 | A generated report exists exactly when every picture can be processed. It then has at least 3 pages and is signed on its last page. |

## Left out

- Streamlit widgets, session state, reruns, `form_key` and every message text: the model keeps only which outcome each input leads to.
- Sending the report by e-mail (app.py:107-146): SMTP is outside the model.
- `st.download_button`, the file name and date formatting: output handling only.
- PIL's decoding, pixel rotation and JPEG/PNG encoding: a picture is either `Unreadable` (opening or re-encoding raises) or has an EXIF outcome and a size. HEIC support is a registered plug-in with the same two outcomes.
- The EXIF Orientation values 2, 4, 5 and 7 (mirrored) and non-integer tag values: the code treats them like any other value and turns nothing, which `Orientation.TagsDecideAngle` states.
- FPDF drawing: fonts, colours, rectangles, the footer, `alias_nb_pages`, and the page content stream are not modelled. Only calls that move the cursor or add a page are kept.
- Text wrapping: `multi_cell` line counts are an input (`Layout.LineCount`), because they depend on Arial's glyph widths. The count is at least 1 (`Layout.WrappedLines`), because `multi_cell` always emits its last line, even for empty text.
- Fractions of a millimetre: the model keeps whole millimetres and drops the 0.00125 mm by which FPDF's margin exceeds 10 mm. The tests of the program are unaffected, as the constants in `Layout` show, but every proved y on a page opened by `add_page` is 0.00125 mm below PyFPDF's value: the cursor after `Layout.ObservationsStart` (40), the end of `Layout.ValidationBlock` (60) and the signature's y in `Layout.CreatePdf` (70) are 40.00125, 60.00125 and 70.00125 in FPDF.
- Horizontal positions (`set_x`, `x=` of images) and cells written with `ln=0`: they do not move the cursor vertically. At the y where they occur they cannot trigger a page break.
- An observation photo's real height (190·h/w) is not used: the code moves the cursor by 210 whatever the height, which is what the model does. A photo taller than the space left simply runs past the bottom margin.
- Floating-point arithmetic in the aspect ratio: `Layout.MainPhotoSize` uses exact reals.
- `str(text)` and surrogate characters in `clean_text_for_pdf`: inputs are strings of Unicode scalar values.
- The decimal text of "Observation n - label": the heading keeps the number and the label as data.
- Latin-1 encoding of the finished document (app.py:470): the free-text fields drawn unsanitised (address at 196, building code at 216, persons present at 224) could fail there; the author comes from a fixed list of ASCII names (app.py:362). This is not modelled.
- CheckMarkClean: holds for the corrected table only. With the table as written, ASCII text after the check mark that holds the triple-quoted key is rewritten there (the mark followed by that key gives `+"`); `Sanitizer.CheckMarkCleanAsWritten` states that case.
- CleanKeepsAsciiInPlace: needs one-character keys, so it does not apply to the table as written, whose triple-quoted key is 15 characters long. For that table, `Sanitizer.AsWrittenKeepsAsciiInPlace` gives the in-place result for every ASCII character outside that key, `Sanitizer.AsWrittenFixesAsciiWithoutQuoteKey` passes ASCII text without the key through unchanged, and `Sanitizer.CleanKeepsOthers` keeps the order of the characters no key or value mentions. No in-place result is stated for the key's own six characters (`:`, space, `'`, `"`, `,`, line feed), because an occurrence of the key can span them.
- Layout.KindLabel: agreement with the label computed through the table as written is proved for the radio options, for check-mark kinds over ASCII text and for kinds without a capital P, not for every string.
- Temporary files and their removal: file-system effects only.

## Findings

| source | as written | input that shows it | evidently intended | confidence | as-written member | corrected member |
|---|---|---|---|---|---|---|
| app.py:56-59, 89 | The keys meant as typographic quotes are ASCII. Lines 56, 57 and 89 are all `"'": "'"`. Lines 58-59 form one triple-quoted key, `: '"',` plus a newline and eight spaces, mapped to `"`. The table therefore has an ASCII key that is not mapped to itself, and cleaning is not idempotent. | `: '"',` plus a newline, seven spaces and U+3000. The first clean gives the triple-quoted key; the second gives `"`. | Curly quotes U+2018 and U+2019 map to `'`, and U+201C and U+201D map to `"`. Every key is then non-ASCII, and cleaning is idempotent. | not executed | `Sanitizer.AsWrittenNotIdempotent` | `Sanitizer.CleanTextForPdfIdempotent` |
| app.py:369-386, 444 | `if main_image:` starts at column 0, so it wraps the creation of `signature_canvas`. Without a main photo the name is unbound, and line 444 raises `NameError` outside the `try`. | Address "1 rue de la Paix", building code "A12", no main photo, button pressed. | The signature canvas is always shown. Generation requires address, building code and a signature; the main photo stays optional, as `create_pdf` allows. | not executed | `Guards.AsWrittenCrashesWithoutMainPhoto` | `Guards.Generate` |

=== FILE: guards.dfy ===
/**
  Model of the two checks the page runs before it changes anything: the
  observation form's submit handler (app.py:397-422) and the report button
  (app.py:441-486). Widgets, reruns and messages are Streamlit's; what is kept
  is which inputs lead to which outcome.
 */
module Guards {
  import opened Wrappers
  import opened Layout

  /* ---------------------------------------------------------------------- */
  /* Adding an observation (app.py:397-422)                                   */

  /** What the observation form holds when it is submitted. `photos` is empty
      when nothing was uploaded. */
  datatype Submission = Submission(kind: string, description: string, photos: seq<ImageFile>, action: string)

  /** The message shown after a submission. */
  datatype Notice = Added | MissingDescription | TooManyPhotos

  /** The limit the form announces and enforces (app.py:400-402, 409). */
  const MaxPhotos: nat := 3

  /** The entry a submission becomes: the same four fields (app.py:410-415). */
  function AsEntry(s: Submission): (o: Observation)
    ensures o.kind == s.kind && o.description == s.description
    ensures o.photos == s.photos && o.action == s.action
  {
    Observation(s.kind, s.description, s.photos, s.action)
  }

  /** A submission the handler accepts. */
  predicate Acceptable(s: Submission) {
    s.description != "" && |s.photos| <= MaxPhotos
  }

  /** The handler: an empty description is refused first, then more than three
      photos; otherwise the entry is appended to the session's list. */
  function Submit(list: seq<Observation>, s: Submission): (r: (seq<Observation>, Notice))
    ensures r.1 == Added <==> s.description != "" && |s.photos| <= MaxPhotos
    ensures r.1 == MissingDescription <==> s.description == ""
    ensures r.1 == Added ==> |r.0| == |list| + 1 && r.0[|list|] == AsEntry(s)
    ensures r.1 != Added ==> r.0 == list
    ensures |r.0| >= |list| && r.0[..|list|] == list
  {
    if s.description == "" then (list, MissingDescription)
    else if |s.photos| <= MaxPhotos then (list + [AsEntry(s)], Added)
    else (list, TooManyPhotos)
  }

  /** Every entry in the list passed the handler's checks. */
  predicate AllAcceptable(list: seq<Observation>) {
    forall i :: 0 <= i < |list| ==> list[i].description != "" && |list[i].photos| <= MaxPhotos
  }

  /** A series of submissions, in order, starting from `list`. */
  function SubmitAll(list: seq<Observation>, subs: seq<Submission>): (r: seq<Observation>)
    ensures |list| <= |r| <= |list| + |subs|
    ensures r[..|list|] == list
    decreases |subs|
  {
    if subs == [] then list else SubmitAll(Submit(list, subs[0]).0, subs[1..])
  }

  /** The accepted submissions of a series, as entries, in order. */
  function AcceptedEntries(subs: seq<Submission>): (r: seq<Observation>)
    ensures |r| <= |subs|
    ensures AllAcceptable(r)
    decreases |subs|
  {
    if subs == [] then []
    else (if Acceptable(subs[0]) then [AsEntry(subs[0])] else []) + AcceptedEntries(subs[1..])
  }

  /** After any series of submissions the list is the starting list followed
      by exactly the accepted submissions, in the order they were made. */
  lemma {:induction false} SubmitAllAppendsAccepted(list: seq<Observation>, subs: seq<Submission>)
    ensures SubmitAll(list, subs) == list + AcceptedEntries(subs)
    decreases |subs|
  {
    if subs == [] {
      assert list + [] == list;
    } else {
      var next := Submit(list, subs[0]).0;
      SubmitAllAppendsAccepted(next, subs[1..]);
      var head := if Acceptable(subs[0]) then [AsEntry(subs[0])] else [];
      assert next == list + head;
      assert (list + head) + AcceptedEntries(subs[1..]) == list + (head + AcceptedEntries(subs[1..]));
    }
  }

  /** Submitting keeps every entry of the list acceptable. */
  lemma {:induction false} SubmitAllKeepsAcceptable(list: seq<Observation>, subs: seq<Submission>)
    requires AllAcceptable(list)
    ensures AllAcceptable(SubmitAll(list, subs))
    decreases |subs|
  {
    if subs != [] {
      var next := Submit(list, subs[0]).0;
      assert AllAcceptable(next) by {
        forall i | 0 <= i < |next|
          ensures next[i].description != "" && |next[i].photos| <= MaxPhotos
        {
          if i < |list| {
            assert next[i] == next[..|list|][i];
          }
        }
      }
      SubmitAllKeepsAcceptable(next, subs[1..]);
    }
  }

  /* ---------------------------------------------------------------------- */
  /* Generating the report (app.py:441-486)                                   */

  /** The page's state when the button is pressed: the visit fields, the
      uploaded main photo and whether the canvas returned image data
      (app.py:444 tests only `image_data is None`, so a blank canvas counts). */
  datatype Form = Form(visit: Visit, mainImage: Option<ImageFile>, hasSignatureData: bool)

  /** What pressing the button leads to. `Crashed` is an uncaught exception
      outside the `try` of app.py:459; `Generated` carries what `create_pdf` did. */
  datatype Generation = MissingFields | Unsigned | Crashed | Generated(outcome: Outcome)

  /** The button as the file is written: the canvas is created only inside
      `if main_image:` (app.py:369-386, canvas at 374-382), so without a main photo the name
      `signature_canvas` is unbound when line 444 reads it. */
  function GenerateAsWritten(form: Form, obs: seq<Observation>, lines: LineCount): (g: Generation)
    ensures g == Crashed <==> form.visit.address != "" && form.visit.buildingCode != "" && form.mainImage.None?
    ensures g == MissingFields <==> form.visit.address == "" || form.visit.buildingCode == ""
  {
    if form.visit.address == "" || form.visit.buildingCode == "" then MissingFields
    else if form.mainImage.None? then Crashed
    else if !form.hasSignatureData then Unsigned
    else Generated(CreatePdf(form.visit, form.mainImage, obs, true, lines))
  }

  /** Filling in the address and the building code without uploading a main
      photo makes the as-written button raise instead of asking for a signature. */
  lemma AsWrittenCrashesWithoutMainPhoto(obs: seq<Observation>, lines: LineCount)
    ensures var form := Form(Visit("", "1 rue de la Paix", "", "", "", "", "A12"), None, true);
      GenerateAsWritten(form, obs, lines) == Crashed && Generate(form, obs, lines).Generated?
  {
  }

  /** The button with the canvas always on the page: address and building code
      are required, then a signature; the main photo stays optional as
      `create_pdf` allows. */
  function Generate(form: Form, obs: seq<Observation>, lines: LineCount): (g: Generation)
    ensures g != Crashed
    ensures g.Generated? <==>
      form.visit.address != "" && form.visit.buildingCode != "" && form.hasSignatureData
    ensures g == Unsigned <==>
      form.visit.address != "" && form.visit.buildingCode != "" && !form.hasSignatureData
    ensures g.Generated? ==> g.outcome == CreatePdf(form.visit, form.mainImage, obs, true, lines)
  {
    if form.visit.address == "" || form.visit.buildingCode == "" then MissingFields
    else if !form.hasSignatureData then Unsigned
    else Generated(CreatePdf(form.visit, form.mainImage, obs, true, lines))
  }

  /** Wherever the as-written button does not crash, the corrected one does the same thing. */
  lemma GenerateAgreesUnlessCrashed(form: Form, obs: seq<Observation>, lines: LineCount)
    requires GenerateAsWritten(form, obs, lines) != Crashed
    ensures Generate(form, obs, lines) == GenerateAsWritten(form, obs, lines)
  {
  }

  /** A generated report is signed on its last page, which is page 3 or later,
      unless a picture could not be processed. */
  lemma GeneratedReportIsSigned(form: Form, obs: seq<Observation>, lines: LineCount)
    requires Generate(form, obs, lines).Generated?
    ensures var o := Generate(form, obs, lines).outcome;
      && (o.Built? <==> AllReadable(form.mainImage, obs))
      && (o.Built? ==> o.report.pageCount >= 3 && o.report.signature == Some(Placement(o.report.pageCount, 70)))
  {
  }
}

=== FILE: layout.dfy ===
/**
  Model of the page layout `create_pdf` (app.py:148-348) performs: a cursor
  `(page, y)`, in millimetres from the top edge, threaded through the fixed
  document order (information page, observations, signature page).

  Drawing itself (fonts, colours, rectangles, pixels) is FPDF's and is not
  modelled; what is kept is every call that moves the cursor or adds a page.
  `PDF()` at app.py:168 takes the defaults of PyFPDF 1.7.2: an A4 portrait
  page of 841.89 pt, in millimetres (k = 72 / 25.4 points per millimetre),
  with margins of 28.35 / k = 10.00125 mm and an automatic page break at
  297.00008 - 2 * 10.00125 = 276.99758 mm. How many lines a `multi_cell`
  wraps its text into depends on font metrics, so that count is an input.

  Coordinates are kept in whole millimetres. Every page starts at the top
  margin, so every y on a page opened by `add_page` is 0.00125 mm below the
  whole number the model keeps; only `set_xy(15, 45)` on the first page
  (app.py:176) puts the cursor on a whole number. Every height the program
  uses is whole, so each test of the program is exactly a test on the whole
  part, and the constants below are those exact tests.
 */
module Layout {
  import opened Wrappers
  import opened Orientation
  import Sanitizer

  /* ---------------------------------------------------------------------- */
  /* Geometry                                                                 */

  /** The top margin, 10.00125 mm, without its fractional excess. */
  const TopMargin: int := 10
  /** A text line whose bottom would pass this y moves to a new page first.
      FPDF breaks when y + h > 276.99758; with a whole height and a y that is
      whole or 0.00125 above a whole number, that is y + h >= 277. */
  const BreakTrigger: int := 277 - 1
  /** The y every new page starts at: the top margin plus the header's title
      cell of 10 and its `ln(10)` (app.py:159-160). */
  const PageTop: int := TopMargin + 10 + 10

  /** A photo whose top would be below this y goes to a new page: app.py:313
      tests `get_y() > 200` on a page opened by `add_page`, where y is
      0.00125 above the whole number kept, so the test holds from 200 on. */
  const PhotoBreakY: int := 200 - 1
  /** Every picture is drawn 190 mm wide (app.py:237, 316). */
  const PhotoWidth: int := 190
  /** What the cursor moves after an observation photo: `set_y(y + 190)` and `ln(20)` (app.py:317-318). */
  const PhotoAdvance: int := 190 + 20
  /** An observation ending below this y is followed by a new page: app.py:324
      tests `get_y() > 250`, which holds from 250 on for the same reason. */
  const EntryBreakY: int := 250 - 1
  /** The main photo's fixed top edge (app.py:239). */
  const MainPhotoY: int := 120

  /** A position in the document: 1-based page number and y on that page. */
  datatype Cursor = Cursor(page: nat, y: int)

  /** Every cursor the layout produces is on a real page, at or below the page top. */
  predicate Settled(c: Cursor) {
    c.page >= 1 && c.y >= PageTop
  }

  /* ---------------------------------------------------------------------- */
  /* FPDF cursor primitives                                                   */

  /** `add_page()`: the next page, just under its header. */
  function AddPage(c: Cursor): (r: Cursor)
    ensures r.page == c.page + 1
    ensures Settled(r)
  {
    Cursor(c.page + 1, PageTop)
  }

  /** `ln(h)` and `set_y`: move down without any page-break check. */
  function Ln(c: Cursor, h: nat): (r: Cursor)
    ensures r.page == c.page && r.y >= c.y
    ensures Settled(c) ==> Settled(r)
  {
    Cursor(c.page, c.y + h)
  }

  /** A row of `cell(..., h, ...)` calls ending with a line feed: FPDF breaks
      the page first when the row would end past the trigger. */
  function Cell(c: Cursor, h: nat): (r: Cursor)
    ensures r.page == c.page || r.page == c.page + 1
    ensures r.page == c.page <==> c.y + h <= BreakTrigger
    ensures r.page == c.page ==> r.y == c.y + h && r.y <= BreakTrigger
    ensures r.page == c.page + 1 ==> r.y == PageTop + h
    ensures Settled(c) ==> Settled(r)
  {
    if c.y + h > BreakTrigger then Cursor(c.page + 1, PageTop + h) else Ln(c, h)
  }

  /** `multi_cell(0, h, text)` that wraps into `lines` lines: one `Cell` per line. */
  function MultiCell(c: Cursor, h: nat, lines: nat): (r: Cursor)
    ensures c.page <= r.page <= c.page + lines
    ensures Settled(c) ==> Settled(r)
    ensures c.y >= 0 ==> r.y >= 0
    decreases lines
  {
    if lines == 0 then c else MultiCell(Cell(c, h), h, lines - 1)
  }

  /** The last line of a wrapped text is one more `Cell` after the others. */
  lemma {:induction false} MultiCellLast(c: Cursor, h: nat, lines: nat)
    ensures MultiCell(c, h, lines + 1) == Cell(MultiCell(c, h, lines), h)
    decreases lines
  {
    if lines > 0 {
      MultiCellLast(Cell(c, h), h, lines - 1);
    }
  }

  /** Text that fits above the trigger stays on the page and moves the cursor by its height. */
  lemma {:induction false} MultiCellFits(c: Cursor, h: nat, lines: nat)
    requires c.y + h * lines <= BreakTrigger
    ensures MultiCell(c, h, lines) == Cursor(c.page, c.y + h * lines)
    decreases lines
  {
    if lines > 0 {
      var rest := h * (lines - 1);
      assert h * lines == h + rest;
      assert rest >= 0;
      var next := Cursor(c.page, c.y + h);
      assert Cell(c, h) == next;
      MultiCellFits(next, h, lines - 1);
      assert MultiCell(c, h, lines) == MultiCell(next, h, lines - 1);
    }
  }

  /* ---------------------------------------------------------------------- */
  /* Inputs                                                                   */

  /** A side length of a decoded picture: PIL never decodes an empty image. */
  type Side = n: int | n >= 1 witness 1

  /** An uploaded file as PIL sees it: either it cannot be opened and
      re-encoded, or it is a picture with an EXIF outcome and a size. */
  datatype ImageFile = Unreadable | Picture(exif: ExifRead, width: Side, height: Side)

  /** One entry of the observation list (app.py:410-415). `kind` is the radio
      button's text; `photos` is empty when none were uploaded. */
  datatype Observation = Observation(kind: string, description: string, photos: seq<ImageFile>, action: string)

  /** The `data` dictionary of app.py:448-456. */
  datatype Visit = Visit(date: string, address: string, author: string, persons: string,
                         arrival: string, departure: string, buildingCode: string)

  /** A number of wrapped lines: `multi_cell` always draws its last chunk, so
      even an empty text takes one line. */
  type WrappedLines = n: nat | n >= 1 witness 1

  /** How many lines `multi_cell` wraps the text of a field into, in a box of
      the given width: descriptions and actions are sanitised first (app.py:283-284,
      294-295), the persons present are drawn as typed (app.py:224). */
  type LineCount = (int, string) -> WrappedLines

  /** Box widths of the wrapped texts: persons present start at x = 60
      (app.py:220-224), descriptions and actions at the left margin. */
  const PersonsWidth: int := 140
  const TextWidth: int := 190

  /* ---------------------------------------------------------------------- */
  /* Observation heading (app.py:263-272)                                     */

  datatype Colour = Rgb(red: int, green: int, blue: int)

  const PositiveLabel: string := "Positive"
  const ImproveLabel: string := "A am\U{00E9}liorer"
  const PositiveColour: Colour := Rgb(0, 150, 0)
  const ImproveColour: Colour := Rgb(200, 0, 0)

  /** The label: "Positive" exactly when the sanitised kind contains "Positive". */
  function KindLabel(kind: string): (name: string)
    ensures name == PositiveLabel <==> Sanitizer.Occurs(PositiveLabel, Sanitizer.CleanTextForPdf(kind))
    ensures name == PositiveLabel || name == ImproveLabel
  {
    if Sanitizer.Occurs(PositiveLabel, Sanitizer.CleanTextForPdf(kind)) then PositiveLabel else ImproveLabel
  }

  /** The same test with the sanitiser's table as the file spells it, which is
      what app.py:263-266 runs; `KindLabel` uses the corrected table, and the
      lemmas after the radio options show the two agree on the kinds the form
      offers. */
  function KindLabelAsWritten(kind: string): (name: string)
    ensures name == PositiveLabel <==> Sanitizer.Occurs(PositiveLabel, Sanitizer.CleanAsWritten(kind))
    ensures name == PositiveLabel || name == ImproveLabel
  {
    if Sanitizer.Occurs(PositiveLabel, Sanitizer.CleanAsWritten(kind)) then PositiveLabel else ImproveLabel
  }

  /** Green for a positive observation, red for every other one. */
  function LabelColour(name: string): (colour: Colour)
    ensures colour == PositiveColour <==> name == PositiveLabel
    ensures colour == ImproveColour <==> name != PositiveLabel
  {
    if name == PositiveLabel then PositiveColour else ImproveColour
  }

  /** "Observation <number> - <label>", drawn in `colour`. */
  datatype Heading = Heading(number: nat, name: string, colour: Colour)

  function EntryHeading(index: nat, kind: string): (h: Heading)
    ensures h.number == index + 1
    ensures h.name == KindLabel(kind)
    ensures h.colour == PositiveColour <==> Sanitizer.Occurs(PositiveLabel, Sanitizer.CleanTextForPdf(kind))
  {
    var name := KindLabel(kind);
    Heading(index + 1, name, LabelColour(name))
  }

  /* ---------------------------------------------------------------------- */
  /* Pictures                                                                 */

  /** Where a picture's top-left corner goes. */
  datatype Placement = Placement(page: nat, y: int)

  /** The main photo: placed 190 wide, with the height that keeps the aspect
      of the picture `fix_image_rotation` returned (app.py:235-239). */
  function MainPhotoSize(width: Side, height: Side): (size: (int, real))
    ensures size.0 == PhotoWidth
    ensures size.1 * (width as real) == (PhotoWidth as real) * (height as real)
    ensures size.1 > 0.0
    ensures width == height ==> size.1 == PhotoWidth as real
  {
    var aspect := (height as real) / (width as real);
    (PhotoWidth, (PhotoWidth as real) * aspect)
  }

  /** The main photo as drawn: on the page the cursor is on, at y = 120. */
  datatype MainPhoto = MainPhoto(at: Placement, width: int, height: real)

  function PlaceMainPhoto(c: Cursor, picture: ImageFile): (m: MainPhoto)
    requires picture.Picture?
    ensures m.at == Placement(c.page, MainPhotoY)
    ensures var (w, h) := NormalizedSize(picture.exif, picture.width, picture.height);
      m.width == PhotoWidth && m.height * (w as real) == (PhotoWidth as real) * (h as real)
  {
    NormalizedSizeSides(picture.exif, picture.width, picture.height);
    var (w, h) := NormalizedSize(picture.exif, picture.width, picture.height);
    var size := MainPhotoSize(w, h);
    MainPhoto(Placement(c.page, MainPhotoY), size.0, size.1)
  }

  /** One observation photo (app.py:312-318): a new page first when the cursor
      is below y = 200 (at 200 or more in whole millimetres), then the cursor moves 210 down whatever the picture's
      real height. */
  function PlacePhoto(c: Cursor): (r: (Placement, Cursor))
    ensures c.y <= PhotoBreakY ==> r.0 == Placement(c.page, c.y)
    ensures c.y > PhotoBreakY ==> r.0 == Placement(c.page + 1, PageTop)
    ensures r.0.y <= PhotoBreakY
    ensures r.1 == Cursor(r.0.page, r.0.y + PhotoAdvance)
  {
    var at := if c.y > PhotoBreakY then AddPage(c) else c;
    (Placement(at.page, at.y), Ln(at, PhotoAdvance))
  }

  /** The photo loop of app.py:306-321 over `count` photos. */
  function PlacePhotos(c: Cursor, count: nat): (r: (seq<Placement>, Cursor))
    ensures |r.0| == count
    ensures count == 0 ==> r.1 == c
    ensures count > 0 ==> r.0[0] == PlacePhoto(c).0
    ensures count > 0 ==> r.1 == Cursor(r.0[count - 1].page, r.0[count - 1].y + PhotoAdvance)
    ensures forall i :: 0 <= i < count ==> r.0[i].y <= PhotoBreakY
    ensures forall i :: 0 <= i < count ==> c.page <= r.0[i].page <= r.1.page
    ensures c.y >= 0 ==> forall i :: 0 < i < count ==> r.0[i] == Placement(r.0[i - 1].page + 1, PageTop)
    ensures Settled(c) ==> Settled(r.1)
    decreases count
  {
    if count == 0 then ([], c)
    else
      var (first, next) := PlacePhoto(c);
      var (rest, end) := PlacePhotos(next, count - 1);
      ([first] + rest, end)
  }

  /** A photo whose cursor is exactly at 200 (200.00125 in FPDF) goes to the next page. */
  lemma PhotoAtBoundaryMoves(page: nat)
    ensures PlacePhoto(Cursor(page, 200)).0 == Placement(page + 1, PageTop)
  {
  }

  /** Two photos of one observation never share a page. */
  lemma {:induction false} PhotosOnSeparatePages(c: Cursor, count: nat, i: nat, j: nat)
    requires c.y >= 0 && i < j < count
    ensures PlacePhotos(c, count).0[i].page < PlacePhotos(c, count).0[j].page
    decreases j - i
  {
    var ps := PlacePhotos(c, count).0;
    assert ps[j].page == ps[j - 1].page + 1;
    if i < j - 1 {
      PhotosOnSeparatePages(c, count, i, j - 1);
    }
  }

  /* ---------------------------------------------------------------------- */
  /* One observation (app.py:252-325)                                         */

  /** The text part of an observation, from the spacing `ln(20)` to the
      spacing before the photos (app.py:254-298). */
  function EntryText(c: Cursor, obs: Observation, lines: LineCount): (r: Cursor)
    ensures c.page <= r.page
    ensures c.y >= 0 ==> r.y >= 0
    ensures Settled(c) ==> Settled(r)
  {
    var start := Ln(c, 20);
    var titled := Cell(Ln(start, 2), 8);
    var described := MultiCell(Cell(Ln(titled, 8), 8), 7, lines(TextWidth, obs.description));
    var acted :=
      if obs.action != "" then
        MultiCell(Cell(Ln(described, 8), 8), 7, lines(TextWidth, obs.action))
      else described;
    Ln(acted, 8)
  }

  /** The "Photos :" title and `ln(2)`, present only when there are photos (app.py:301-304). */
  function PhotosTitle(c: Cursor, obs: Observation): (r: Cursor)
    ensures obs.photos == [] ==> r == c
    ensures c.page <= r.page
    ensures c.y >= 0 ==> r.y >= 0
    ensures Settled(c) ==> Settled(r)
  {
    if obs.photos != [] then Ln(Cell(c, 8), 2) else c
  }

  /** The rule of app.py:324-325: a new page exactly when the cursor is below
      y = 250 (at 250 or more in whole millimetres). */
  function CloseEntry(c: Cursor): (r: Cursor)
    ensures r.page == (if c.y > EntryBreakY then c.page + 1 else c.page)
    ensures r.y <= EntryBreakY
    ensures Settled(c) ==> Settled(r)
  {
    if c.y > EntryBreakY then AddPage(c) else c
  }

  /** What one observation occupies: where it started, where its photos went,
      the cursor before the closing rule and the cursor after it. */
  datatype Entry = Entry(first: Cursor, photos: seq<Placement>, beforeClose: Cursor, last: Cursor)

  /** What the layout of one observation guarantees: one placement per photo,
      on pages that strictly increase, none before the entry's first page or
      after the cursor that reaches the closing rule; the closing rule of
      app.py:324-325 applied last; pages never going back. */
  predicate EntryShape(e: Entry, obs: Observation) {
    && |e.photos| == |obs.photos|
    && e.last == CloseEntry(e.beforeClose)
    && e.first.page <= e.beforeClose.page <= e.last.page
    && (forall k :: 0 <= k < |e.photos| ==> e.first.page <= e.photos[k].page <= e.beforeClose.page)
    && (forall k :: 0 <= k < |e.photos| ==> e.photos[k].y <= PhotoBreakY)
    && (e.first.y >= 0 ==> forall k :: 0 < k < |e.photos| ==> e.photos[k] == Placement(e.photos[k - 1].page + 1, PageTop))
  }

  function LayoutEntry(c: Cursor, obs: Observation, lines: LineCount): (e: Entry)
    ensures e.first == c
    ensures EntryShape(e, obs)
    ensures Settled(c) ==> Settled(e.last)
  {
    var text := EntryText(c, obs, lines);
    var titled := PhotosTitle(text, obs);
    var (photos, end) := PlacePhotos(titled, |obs.photos|);
    Entry(c, photos, end, CloseEntry(end))
  }

  /** The observation loop of app.py:252: entries in list order, each starting
      where the previous one left the cursor. */
  function LayoutEntries(c: Cursor, obs: seq<Observation>, lines: LineCount): (r: (seq<Entry>, Cursor))
    ensures |r.0| == |obs|
    ensures |obs| == 0 ==> r.1 == c
    ensures |obs| > 0 ==> r.0[0].first == c && r.0[|obs| - 1].last == r.1
    ensures c.page <= r.1.page
    ensures Settled(c) ==> Settled(r.1)
    decreases |obs|
  {
    if obs == [] then ([], c)
    else
      var e := LayoutEntry(c, obs[0], lines);
      var tail := LayoutEntries(e.last, obs[1..], lines);
      ([e] + tail.0, tail.1)
  }

  /** Each entry starts where the previous one ended, and is laid out from there. */
  lemma {:induction false} EntriesChained(c: Cursor, obs: seq<Observation>, lines: LineCount)
    ensures var es := LayoutEntries(c, obs, lines).0;
      forall i :: 0 <= i < |obs| - 1 ==> es[i].last == es[i + 1].first
    decreases |obs|
  {
    if obs != [] {
      var e := LayoutEntry(c, obs[0], lines);
      EntriesChained(e.last, obs[1..], lines);
      var es := LayoutEntries(c, obs, lines).0;
      assert es == [e] + LayoutEntries(e.last, obs[1..], lines).0;
    }
  }

  lemma SingleEntry(c: Cursor, o: Observation, lines: LineCount)
    ensures LayoutEntries(c, [o], lines) == ([LayoutEntry(c, o, lines)], LayoutEntry(c, o, lines).last)
  {
    assert [o][1..] == [];
    var e := LayoutEntry(c, o, lines);
    assert [e] + [] == [e];
  }

  /** Entry i has the shape of observation i. */
  lemma {:induction false} EntryFollowsObservation(c: Cursor, obs: seq<Observation>, lines: LineCount, i: nat)
    requires i < |obs|
    ensures EntryShape(LayoutEntries(c, obs, lines).0[i], obs[i])
    decreases i
  {
    var e := LayoutEntry(c, obs[0], lines);
    if i > 0 {
      EntryFollowsObservation(e.last, obs[1..], lines, i - 1);
      assert obs[i] == obs[1..][i - 1];
    }
  }

  /** The headings in list order (app.py:252, 263-272): observation i is
      numbered i + 1 and is either green "Positive" or red "A améliorer". */
  function EntryHeadings(obs: seq<Observation>): (hs: seq<Heading>)
    ensures |hs| == |obs|
    ensures forall i :: 0 <= i < |obs| ==> hs[i].number == i + 1
    ensures forall i :: 0 <= i < |obs| ==>
      (hs[i].name == PositiveLabel && hs[i].colour == PositiveColour) ||
      (hs[i].name == ImproveLabel && hs[i].colour == ImproveColour)
    ensures forall i :: 0 <= i < |obs| ==>
      (hs[i].name == PositiveLabel <==> Sanitizer.Occurs(PositiveLabel, Sanitizer.CleanTextForPdf(obs[i].kind)))
  {
    seq(|obs|, i requires 0 <= i < |obs| => EntryHeading(i, obs[i].kind))
  }

  /** The two radio options of app.py:398: a check mark or a cross, a space
      and the label. */
  const PositiveOption: string := ['\U{2705}'] + " " + PositiveLabel
  const ImproveOption: string := ['\U{274C}'] + " " + ImproveLabel

  /** A kind made of the check mark and then ASCII text that mentions
      "Positive" gives a green "Positive" heading: the mark becomes "+" and
      nothing else is rewritten. */
  lemma CheckMarkKindIsGreen(index: nat, t: string)
    requires Sanitizer.AllAscii(t) && Sanitizer.Occurs(PositiveLabel, t)
    ensures EntryHeading(index, ['\U{2705}'] + t) == Heading(index + 1, PositiveLabel, PositiveColour)
  {
    Sanitizer.CheckMarkClean(t);
    Sanitizer.OccursAfterPrefix(PositiveLabel, "+", t);
  }

  /** A kind without a capital P gives a red "A améliorer" heading: no table
      entry holds a P either, so the sanitised text cannot contain "Positive". */
  lemma KindWithoutCapitalPIsRed(index: nat, kind: string)
    requires 'P' !in kind
    ensures EntryHeading(index, kind) == Heading(index + 1, ImproveLabel, ImproveColour)
  {
    Sanitizer.CorrectedTableLeavesP();
    NoCapitalPNoPositive(Sanitizer.CorrectedTable, kind);
  }

  /** A table without a capital P cannot make "Positive" out of text without one. */
  lemma NoCapitalPNoPositive(table: seq<Sanitizer.Substitution>, kind: string)
    requires Sanitizer.Untouched(table, {'P'}) && 'P' !in kind
    ensures !Sanitizer.Occurs(PositiveLabel, Sanitizer.Clean(table, kind))
  {
    Sanitizer.CleanKeepsOthers(table, kind, {'P'});
    Sanitizer.ProjectDisjoint(kind, {'P'});
    var clean := Sanitizer.Clean(table, kind);
    Sanitizer.ProjectEmptyAbsent(clean, {'P'}, 'P');
    Sanitizer.ForeignCharNotOccurs(PositiveLabel, clean, 0);
  }

  /** The option "✅ Positive" gives a green "Positive" heading. */
  lemma PositiveOptionIsGreen(index: nat)
    ensures EntryHeading(index, PositiveOption) == Heading(index + 1, PositiveLabel, PositiveColour)
  {
    var t := " " + PositiveLabel;
    assert Sanitizer.AllAscii(t);
    Sanitizer.OccursAtEnd(PositiveLabel, " ");
    CheckMarkKindIsGreen(index, t);
    assert PositiveOption == ['\U{2705}'] + t;
  }

  /** The option "❌ A améliorer" gives a red "A améliorer" heading. */
  lemma ImproveOptionIsRed(index: nat)
    ensures EntryHeading(index, ImproveOption) == Heading(index + 1, ImproveLabel, ImproveColour)
  {
    assert 'P' !in ImproveOption;
    KindWithoutCapitalPIsRed(index, ImproveOption);
  }

  /** With the table as written, a kind made of the check mark and ASCII text
      that mentions "Positive" is labelled "Positive" too: the quote key shares
      no character with "Positive", so rewriting it cannot break that word. */
  lemma CheckMarkLabelsAgree(t: string)
    requires Sanitizer.AllAscii(t) && Sanitizer.Occurs(PositiveLabel, t)
    ensures KindLabelAsWritten(['\U{2705}'] + t) == KindLabel(['\U{2705}'] + t) == PositiveLabel
  {
    CheckMarkKindIsGreen(0, t);
    Sanitizer.CheckMarkCleanAsWritten(t);
    PositiveAvoidsQuoteKey();
    Sanitizer.ReplaceKeepsOccurrence(PositiveLabel, t, Sanitizer.QuoteKey, "\"");
    Sanitizer.OccursAfterPrefix(PositiveLabel, "+", Sanitizer.Replace(t, Sanitizer.QuoteKey, "\""));
  }

  lemma PositiveAvoidsQuoteKey()
    ensures Sanitizer.QuoteKey != [] && Sanitizer.Avoids(PositiveLabel, Sanitizer.QuoteKey)
  {
    var k := PositiveLabel;
    forall i | 0 <= i < |k|
      ensures k[i] !in Sanitizer.QuoteKey
    {
    }
  }

  /** With either table, a kind without a capital P is labelled "A améliorer". */
  lemma NoCapitalPLabelsAgree(kind: string)
    requires 'P' !in kind
    ensures KindLabelAsWritten(kind) == KindLabel(kind) == ImproveLabel
  {
    KindWithoutCapitalPIsRed(0, kind);
    Sanitizer.AsWrittenTableLeavesP();
    NoCapitalPNoPositive(Sanitizer.AsWrittenTable, kind);
  }

  /** On both radio options, the only kinds the form produces, the label is
      the same whichever table the sanitiser uses. */
  lemma OptionLabelsAgree()
    ensures KindLabelAsWritten(PositiveOption) == KindLabel(PositiveOption) == PositiveLabel
    ensures KindLabelAsWritten(ImproveOption) == KindLabel(ImproveOption) == ImproveLabel
  {
    PositiveOptionLabelsAgree(PositiveOption);
    ImproveOptionLabelsAgree(ImproveOption);
  }

  lemma PositiveOptionLabelsAgree(kind: string)
    requires kind == PositiveOption
    ensures KindLabelAsWritten(kind) == KindLabel(kind) == PositiveLabel
  {
    var t := " " + PositiveLabel;
    assert Sanitizer.AllAscii(t);
    Sanitizer.OccursAtEnd(PositiveLabel, " ");
    assert kind == ['\U{2705}'] + t;
    CheckMarkLabelsAgree(t);
  }

  lemma ImproveOptionLabelsAgree(kind: string)
    requires kind == ImproveOption
    ensures KindLabelAsWritten(kind) == KindLabel(kind) == ImproveLabel
  {
    assert 'P' !in kind;
    NoCapitalPLabelsAgree(kind);
  }

  /** An observation under the banner with a 10-line description, a 10-line
      action and no photo ends at exactly y = 250 (250.00125 in FPDF), so the
      closing rule opens a new page. */
  lemma EntryEndingAt250AddsPage(o: Observation, lines: LineCount)
    requires o.photos == [] && o.action != ""
    requires lines(TextWidth, o.description) == 10 && lines(TextWidth, o.action) == 10
    ensures LayoutEntry(Cursor(2, 40), o, lines).beforeClose == Cursor(2, 250)
    ensures LayoutEntry(Cursor(2, 40), o, lines).last == Cursor(3, PageTop)
  {
    MultiCellFits(Cursor(2, 86), 7, 10);
    MultiCellFits(Cursor(2, 172), 7, 10);
    assert EntryText(Cursor(2, 40), o, lines) == Cursor(2, 250);
  }

  /** Two observations of three description lines each, under the banner: the
      first ends at 115, the second reaches its photo at exactly y = 200, and
      that photo goes to the top of page 3. */
  lemma SecondPhotoAtBoundary(o1: Observation, o2: Observation, lines: LineCount)
    requires o1.photos == [] && o1.action == "" && o2.action == "" && |o2.photos| == 1
    requires lines(TextWidth, o1.description) == 3 && lines(TextWidth, o2.description) == 3
    ensures LayoutEntries(Cursor(2, 40), [o1, o2], lines).0[1].photos == [Placement(3, PageTop)]
  {
    MultiCellFits(Cursor(2, 86), 7, 3);
    assert EntryText(Cursor(2, 40), o1, lines) == Cursor(2, 115);
    var e1 := LayoutEntry(Cursor(2, 40), o1, lines);
    assert e1.last == Cursor(2, 115);
    MultiCellFits(Cursor(2, 161), 7, 3);
    assert EntryText(Cursor(2, 115), o2, lines) == Cursor(2, 190);
    assert PhotosTitle(Cursor(2, 190), o2) == Cursor(2, 200);
    var e2 := LayoutEntry(Cursor(2, 115), o2, lines);
    assert e2.photos == [Placement(3, PageTop)];
    assert [o1, o2][1..] == [o2];
    SingleEntry(Cursor(2, 115), o2, lines);
  }

  /* ---------------------------------------------------------------------- */
  /* The whole document (app.py:168-348)                                      */

  /** The information page (app.py:169-224): rows of 8 from y = 45, five line
      feeds, then the wrapped persons present when that field is filled in. */
  function InfoPage(visit: Visit, lines: LineCount): (c: Cursor)
    ensures Settled(c) && c.page >= 1
    ensures visit.persons == "" ==> c == Cursor(1, 85)
  {
    var first := AddPage(Cursor(0, 0));
    var rows := Cell(Cell(Cell(Cell(Cell(Cursor(first.page, 45), 8), 8), 8), 8), 8);
    if visit.persons == "" then rows else MultiCell(rows, 8, lines(PersonsWidth, visit.persons))
  }

  /** Up to 23 lines of persons present still fit on the first page. */
  lemma InfoPageWithPersons(visit: Visit, lines: LineCount)
    requires visit.persons != "" && lines(PersonsWidth, visit.persons) <= 23
    ensures InfoPage(visit, lines) == Cursor(1, 85 + 8 * lines(PersonsWidth, visit.persons))
  {
    MultiCellFits(Cursor(1, 85), 8, lines(PersonsWidth, visit.persons));
  }

  /** The 24th line of persons present would end at 85 + 8 * 24 = 277, past the
      trigger, so it opens page 2 and the list ends there. */
  lemma InfoPageOverflows(visit: Visit, lines: LineCount)
    requires visit.persons != "" && lines(PersonsWidth, visit.persons) == 24
    ensures InfoPage(visit, lines) == Cursor(2, PageTop + 8)
  {
    MultiCellFits(Cursor(1, 85), 8, 23);
    MultiCellLast(Cursor(1, 85), 8, 23);
  }

  /** The banner page (app.py:245-249): a new page and the 10 mm "OBSERVATIONS" cell. */
  function ObservationsStart(info: Cursor): (c: Cursor)
    ensures c == Cursor(info.page + 1, PageTop + 10)
  {
    Cell(AddPage(info), 10)
  }

  /** The validation block on the last page (app.py:328-336): title, spacing,
      author and role; the signature goes 10 mm under it (app.py:343). */
  function ValidationBlock(page: Cursor): (c: Cursor)
    ensures page.y == PageTop ==> c == Cursor(page.page, PageTop + 30)
  {
    Cell(Cell(Ln(Cell(page, 10), 5), 10), 5)
  }

  const SignatureGap: int := 10

  /** Whether PIL can open and re-encode the main photo and every observation photo. */
  predicate AllReadable(mainImage: Option<ImageFile>, obs: seq<Observation>) {
    && (mainImage.Some? ==> mainImage.value.Picture?)
    && forall i, j :: 0 <= i < |obs| && 0 <= j < |obs[i].photos| ==> obs[i].photos[j].Picture?
  }

  /** What the model keeps of the document `create_pdf` returns. */
  datatype Report = Report(
    pageCount: nat,
    mainPhoto: Option<MainPhoto>,
    observationsPage: nat,
    headings: seq<Heading>,
    entries: seq<Entry>,
    signaturePage: nat,
    signature: Option<Placement>)

  /** `create_pdf` either returns the document or raises while processing a
      picture; the caller at app.py:459-483 turns the latter into an error message. */
  datatype Outcome = Built(report: Report) | ImageFailed

  /** `create_pdf(data, main_image_file, observations, signature_image)`:
      `signed` says whether a signature image is passed. */
  function CreatePdf(visit: Visit, mainImage: Option<ImageFile>, obs: seq<Observation>,
                     signed: bool, lines: LineCount): (o: Outcome)
    ensures o.Built? <==> AllReadable(mainImage, obs)
    ensures o.Built? ==>
      && o.report.pageCount >= 3
      && o.report.signaturePage == o.report.pageCount
      && 2 <= o.report.observationsPage < o.report.signaturePage
      && |o.report.entries| == |obs|
      && |o.report.headings| == |obs|
      && (o.report.mainPhoto.Some? <==> mainImage.Some?)
      && o.report.signature == (if signed then Some(Placement(o.report.pageCount, PageTop + 30 + SignatureGap)) else None)
  {
    if !AllReadable(mainImage, obs) then ImageFailed
    else
      var info := InfoPage(visit, lines);
      var main := if mainImage.Some? then Some(PlaceMainPhoto(info, mainImage.value)) else None;
      var start := ObservationsStart(info);
      var (entries, end) := LayoutEntries(start, obs, lines);
      var last := AddPage(end);
      var block := ValidationBlock(last);
      var signature := if signed then Some(Placement(block.page, block.y + SignatureGap)) else None;
      Built(Report(last.page, main, start.page, EntryHeadings(obs), entries, last.page, signature))
  }

  /** Where the stages of a built report come from. */
  lemma CreatePdfStages(visit: Visit, mainImage: Option<ImageFile>, obs: seq<Observation>,
                        signed: bool, lines: LineCount)
    requires AllReadable(mainImage, obs)
    ensures var r := CreatePdf(visit, mainImage, obs, signed, lines).report;
      var start := ObservationsStart(InfoPage(visit, lines));
      && r.observationsPage == start.page
      && r.entries == LayoutEntries(start, obs, lines).0
      && r.signaturePage == LayoutEntries(start, obs, lines).1.page + 1
      && r.headings == EntryHeadings(obs)
      && r.mainPhoto == (if mainImage.Some? then Some(PlaceMainPhoto(InfoPage(visit, lines), mainImage.value)) else None)
  {
  }

  /** The observations of a built report: the first starts under the banner,
      each starts where the previous one ended, each has the shape of its
      observation and heading, and the last ends on the page before the
      signature page. */
  lemma {:induction false} ReportFollowsObservations(visit: Visit, mainImage: Option<ImageFile>,
                                                    obs: seq<Observation>, signed: bool, lines: LineCount)
    requires AllReadable(mainImage, obs)
    ensures var r := CreatePdf(visit, mainImage, obs, signed, lines).report;
      && (|obs| > 0 ==> r.entries[0].first == Cursor(r.observationsPage, PageTop + 10))
      && (|obs| > 0 ==> r.entries[|obs| - 1].last.page == r.signaturePage - 1)
      && (|obs| == 0 ==> r.signaturePage == r.observationsPage + 1)
      && (forall i :: 0 <= i < |obs| - 1 ==> r.entries[i].last == r.entries[i + 1].first)
      && (forall i :: 0 <= i < |obs| ==> EntryShape(r.entries[i], obs[i]))
  {
    CreatePdfStages(visit, mainImage, obs, signed, lines);
    var start := ObservationsStart(InfoPage(visit, lines));
    EntriesChained(start, obs, lines);
    forall i | 0 <= i < |obs|
      ensures EntryShape(LayoutEntries(start, obs, lines).0[i], obs[i])
    {
      EntryFollowsObservation(start, obs, lines, i);
    }
  }

  /** The headings of a built report number the observations from 1 and are
      green "Positive" exactly when the sanitised kind mentions "Positive". */
  lemma ReportHeadings(visit: Visit, mainImage: Option<ImageFile>,
                       obs: seq<Observation>, signed: bool, lines: LineCount)
    requires AllReadable(mainImage, obs)
    ensures var r := CreatePdf(visit, mainImage, obs, signed, lines).report;
      && (forall i :: 0 <= i < |obs| ==> r.headings[i].number == i + 1)
      && (forall i :: 0 <= i < |obs| ==>
            (r.headings[i].colour == PositiveColour <==> Sanitizer.Occurs(PositiveLabel, Sanitizer.CleanTextForPdf(obs[i].kind))))
  {
    CreatePdfStages(visit, mainImage, obs, signed, lines);
  }

  /** A visit without persons present and with one short observation, no
      photo and no action, fills exactly three pages, the main photo going on
      the first. */
  lemma ShortVisitThreePages(visit: Visit, mainImage: Option<ImageFile>, o: Observation, lines: LineCount)
    requires visit.persons == "" && o.photos == [] && o.action == ""
    requires mainImage.Some? ==> mainImage.value.Picture?
    requires lines(TextWidth, o.description) <= 22
    ensures CreatePdf(visit, mainImage, [o], true, lines).Built?
    ensures var r := CreatePdf(visit, mainImage, [o], true, lines).report;
      && r.pageCount == 3
      && r.entries[0].last == Cursor(2, 94 + 7 * lines(TextWidth, o.description))
      && (r.mainPhoto.Some? ==> r.mainPhoto.value.at == Placement(1, MainPhotoY))
      && r.signature == Some(Placement(3, 70))
  {
    var n := lines(TextWidth, o.description);
    assert AllReadable(mainImage, [o]);
    CreatePdfStages(visit, mainImage, [o], true, lines);
    var start := ObservationsStart(InfoPage(visit, lines));
    assert start == Cursor(2, 40);
    MultiCellFits(Cursor(2, 86), 7, n);
    assert EntryText(start, o, lines) == Cursor(2, 94 + 7 * n);
    var e := LayoutEntry(start, o, lines);
    assert e.last == Cursor(2, 94 + 7 * n);
    SingleEntry(start, o, lines);
  }

  /** With 23 to 27 description lines the same visit ends its observation
      below y = 250, so the closing rule adds a page and the signature comes
      one page later: page 3 stays empty. */
  lemma LongObservationLeavesEmptyPage(visit: Visit, o: Observation, lines: LineCount)
    requires visit.persons == "" && o.photos == [] && o.action == ""
    requires 23 <= lines(TextWidth, o.description) <= 27
    ensures var r := CreatePdf(visit, None, [o], true, lines).report;
      && r.entries[0].beforeClose.page == 2
      && r.entries[0].last == Cursor(3, PageTop)
      && r.pageCount == 4
  {
    var n := lines(TextWidth, o.description);
    assert AllReadable(None, [o]);
    CreatePdfStages(visit, None, [o], true, lines);
    var start := ObservationsStart(InfoPage(visit, lines));
    assert start == Cursor(2, 40);
    MultiCellFits(Cursor(2, 86), 7, n);
    assert EntryText(start, o, lines) == Cursor(2, 94 + 7 * n);
    var e := LayoutEntry(start, o, lines);
    assert e.beforeClose == Cursor(2, 94 + 7 * n);
    SingleEntry(start, o, lines);
  }
}

=== FILE: orientation.dfy ===
/**
  Model of the rotation choice in `fix_image_rotation` (app.py:22-45). The
  decoding, pixel rotation and JPEG re-encoding are PIL's; what the function
  decides is one counter-clockwise angle, from the outcome of reading the EXIF
  block and from the decoded size.

  The Orientation tag is tag 274 (0x0112) of TIFF Rev. 6.0 as used by Exif 2.3
  (CIPA DC-008, section 4.6.4): value 3 means the stored picture is upside
  down, 6 that it must turn 90 degrees clockwise to be upright, 8 that it must
  turn 90 degrees counter-clockwise.
 */
module Orientation {

  /** What `img._getexif()` did: raised, returned `None`, or returned a tag dictionary. */
  datatype ExifRead = Raised | NoExif | Tags(tags: map<int, int>)

  const OrientationTag: int := 274

  predicate IsQuarterTurn(angle: int) {
    angle == 0 || angle == 90 || angle == 180 || angle == 270
  }

  /** The angle (counter-clockwise, as `Image.rotate` takes it) applied to a
      decoded picture of the given size. */
  function RotationAngle(exif: ExifRead, width: int, height: int): (angle: int)
    ensures IsQuarterTurn(angle)
    ensures exif == NoExif ==> angle == 0
    ensures exif == Raised ==> (angle == 270 <==> width < height)
    ensures exif == Raised ==> (angle == 0 <==> width >= height)
  {
    match exif
    case Raised => if width < height then 270 else 0
    case NoExif => 0
    case Tags(tags) =>
      if OrientationTag !in tags then 0
      else if tags[OrientationTag] == 3 then 180
      else if tags[OrientationTag] == 6 then 270
      else if tags[OrientationTag] == 8 then 90
      else 0
  }

  /** The size after `rotate(angle, expand=True)`: a quarter turn swaps the sides. */
  function RotatedSize(angle: int, width: int, height: int): (int, int)
  {
    if angle == 90 || angle == 270 then (height, width) else (width, height)
  }

  /** The size of the picture `fix_image_rotation` returns. */
  function NormalizedSize(exif: ExifRead, width: int, height: int): (size: (int, int))
    ensures size == (width, height) || size == (height, width)
    ensures exif == Raised ==> size.0 >= size.1
  {
    RotatedSize(RotationAngle(exif, width, height), width, height)
  }

  /** With a tag dictionary the angle depends on the Orientation value alone:
      3, 6 and 8 give 180, 270 and 90; any other value, or no value, gives 0. */
  lemma TagsDecideAngle(tags: map<int, int>, width: int, height: int)
    ensures RotationAngle(Tags(tags), width, height) ==
      (if OrientationTag in tags && tags[OrientationTag] == 3 then 180
       else if OrientationTag in tags && tags[OrientationTag] == 6 then 270
       else if OrientationTag in tags && tags[OrientationTag] == 8 then 90
       else 0)
    ensures forall w, h :: RotationAngle(Tags(tags), w, h) == RotationAngle(Tags(tags), width, height)
  {
  }

  /** Only a failed EXIF read consults the picture's size: a `None` result, or
      a dictionary, never does. */
  lemma SizeHeuristicOnlyOnRaise(exif: ExifRead, width: int, height: int)
    requires RotationAngle(exif, width, height) != RotationAngle(exif, height, width)
    ensures exif == Raised
    ensures width != height
  {
  }

  /** The fallback turns exactly the portrait pictures, leaves every other
      picture alone, and so never returns a portrait. */
  lemma FallbackNeverPortrait(width: int, height: int)
    ensures RotationAngle(Raised, width, height) == 270 <==> width < height
    ensures width >= height ==> RotationAngle(Raised, width, height) == 0
    ensures NormalizedSize(Raised, width, height).0 >= NormalizedSize(Raised, width, height).1
  {
  }

  /** A half turn keeps the size and a quarter turn swaps it; an upright
      picture (Orientation 1) is not turned at all. */
  lemma NormalizedSizeCases(tags: map<int, int>, width: int, height: int)
    requires OrientationTag in tags
    ensures tags[OrientationTag] == 1 ==> NormalizedSize(Tags(tags), width, height) == (width, height)
    ensures tags[OrientationTag] == 3 ==> NormalizedSize(Tags(tags), width, height) == (width, height)
    ensures tags[OrientationTag] == 6 || tags[OrientationTag] == 8 ==>
      NormalizedSize(Tags(tags), width, height) == (height, width)
  {
  }

  /** Normalising keeps the set of side lengths, so a positive size stays positive. */
  lemma NormalizedSizeSides(exif: ExifRead, width: int, height: int)
    ensures var (w, h) := NormalizedSize(exif, width, height);
      (w == width && h == height) || (w == height && h == width)
  {
  }

  /** The clockwise turn that the Orientation values without mirroring ask
      for: none for 1, a half turn for 3, a quarter turn for 6, three quarters for 8. */
  function ClockwiseTurn(value: int): int
  {
    if value == 3 then 180 else if value == 6 then 90 else if value == 8 then 270 else 0
  }

  /** For those four values the counter-clockwise angle applied is the
      clockwise correction the tag asks for: turning by `angle` counter-clockwise
      is turning by `360 - angle` clockwise, which equals `ClockwiseTurn` modulo 360. */
  lemma RotationUndoesTag(tags: map<int, int>, width: int, height: int)
    requires OrientationTag in tags
    requires tags[OrientationTag] == 1 || tags[OrientationTag] == 3 || tags[OrientationTag] == 6 || tags[OrientationTag] == 8
    ensures (RotationAngle(Tags(tags), width, height) + ClockwiseTurn(tags[OrientationTag])) % 360 == 0
  {
  }
}

=== FILE: sanitizer.dfy ===
/**
  Model of `clean_text_for_pdf` (app.py:50-105): a fixed substitution table is
  applied entry by entry with Python's `str.replace`, and every character that
  is still outside ASCII then becomes a single space.

  The table is a sequence of key/value pairs in the order a Python dict literal
  iterates them: a key written twice keeps the position of its first spelling
  and the value of its last one.
 */
module Sanitizer {

  /** One table entry: every occurrence of `key` is rewritten to `value`. */
  datatype Substitution = Substitution(key: string, value: string)

  predicate IsAscii(c: char) {
    c as int < 128
  }

  predicate AllAscii(s: string) {
    forall i :: 0 <= i < |s| ==> IsAscii(s[i])
  }

  /** Python's `k in s` for strings: `k` occurs as a contiguous substring of `s`
      (the empty string occurs everywhere). */
  predicate Occurs(k: string, s: string)
    decreases |s|
  {
    |k| <= |s| && (s[..|k|] == k || (|s| > 0 && Occurs(k, s[1..])))
  }

  /** `s.replace("", rep)`: Python puts `rep` before every character and once more at the end. */
  function InsertAround(s: string, rep: string): (r: string)
    ensures |r| == |s| + (|s| + 1) * |rep|
  {
    if s == [] then rep else rep + [s[0]] + InsertAround(s[1..], rep)
  }

  /** `s.replace(pat, rep)`: scans left to right and rewrites every
      non-overlapping occurrence of `pat`. A replacement no longer than its
      key never lengthens the text, and one no shorter never shortens it. */
  function Replace(s: string, pat: string, rep: string): (r: string)
    ensures pat != [] && |rep| <= |pat| ==> |r| <= |s|
    ensures |rep| >= |pat| ==> |r| >= |s|
    decreases |s|
  {
    if pat == [] then InsertAround(s, rep)
    else if |s| < |pat| then s
    else if s[..|pat|] == pat then rep + Replace(s[|pat|..], pat, rep)
    else [s[0]] + Replace(s[1..], pat, rep)
  }

  /** The loop at app.py:100-101: the entries are applied one after another, in table order. */
  function ReplaceAll(table: seq<Substitution>, s: string): (r: string)
    ensures (forall i :: 0 <= i < |table| ==> table[i].key != [] && |table[i].value| <= |table[i].key|) ==> |r| <= |s|
    ensures (forall i :: 0 <= i < |table| ==> |table[i].value| >= |table[i].key|) ==> |r| >= |s|
    decreases |table|
  {
    if table == [] then s
    else ReplaceAll(table[1..], Replace(s, table[0].key, table[0].value))
  }

  /** The comprehension at app.py:104: a character of code 128 or more becomes one space. */
  function BlankNonAscii(s: string): (r: string)
    ensures |r| == |s|
    ensures forall i :: 0 <= i < |s| && IsAscii(s[i]) ==> r[i] == s[i]
    ensures forall i :: 0 <= i < |s| && !IsAscii(s[i]) ==> r[i] == ' '
    ensures AllAscii(r)
    ensures AllAscii(s) ==> r == s
  {
    if s == [] then []
    else [if IsAscii(s[0]) then s[0] else ' '] + BlankNonAscii(s[1..])
  }

  /** `clean_text_for_pdf` over an explicit table. */
  function Clean(table: seq<Substitution>, s: string): (r: string)
    ensures AllAscii(r)
  {
    BlankNonAscii(ReplaceAll(table, s))
  }

  /** Lower-case accented letters and ligatures, app.py:60-73. */
  const LowerCaseTable: seq<Substitution> := [
    Substitution("\U{00E9}", "e"),   // é
    Substitution("\U{00E8}", "e"),   // è
    Substitution("\U{00E0}", "a"),   // à
    Substitution("\U{00EA}", "e"),   // ê
    Substitution("\U{00FB}", "u"),   // û
    Substitution("\U{00F4}", "o"),   // ô
    Substitution("\U{00EE}", "i"),   // î
    Substitution("\U{00EF}", "i"),   // ï
    Substitution("\U{00EB}", "e"),   // ë
    Substitution("\U{00FC}", "u"),   // ü
    Substitution("\U{00E7}", "c"),   // ç
    Substitution("\U{0153}", "oe"),  // œ
    Substitution("\U{00E6}", "ae"),  // æ
    Substitution("\U{00E2}", "a")    // â
  ]

  /** Upper-case accented letters, app.py:74-85. */
  const UpperCaseTable: seq<Substitution> := [
    Substitution("\U{00C9}", "E"),   // É
    Substitution("\U{00C8}", "E"),   // È
    Substitution("\U{00C0}", "A"),   // À
    Substitution("\U{00CA}", "E"),   // Ê
    Substitution("\U{00DB}", "U"),   // Û
    Substitution("\U{00D4}", "O"),   // Ô
    Substitution("\U{00CE}", "I"),   // Î
    Substitution("\U{00CF}", "I"),   // Ï
    Substitution("\U{00CB}", "E"),   // Ë
    Substitution("\U{00DC}", "U"),   // Ü
    Substitution("\U{00C7}", "C"),   // Ç
    Substitution("\U{00C2}", "A")    // Â
  ]

  /** Punctuation and symbols, app.py:86-92; line 89 is left out here because
      it repeats the key of line 56, and lines 95-97 repeat these dashes and
      the ellipsis with the same values. */
  const SymbolTable: seq<Substitution> := [
    Substitution("\U{2026}", "..."), // ellipsis
    Substitution("\U{2014}", "-"),   // em dash
    Substitution("\U{2013}", "-"),   // en dash
    Substitution("\U{00B0}", " degres "),
    Substitution("\U{00B2}", "2"),
    Substitution("\U{20AC}", "EUR")
  ]

  /** The entries of app.py:60-92, shared by both tables below. */
  const LetterTable: seq<Substitution> := LowerCaseTable + UpperCaseTable + SymbolTable

  /** The key that lines 58-59 actually define: the triple-quoted text `: '"',`
      followed by a newline and eight spaces. */
  const QuoteKey: string := ": '\"',\n        "

  /** The as-written table up to and including that key. Lines 56, 57 and 89
      all read `"'": "'"`, one identity entry. */
  const AsWrittenHead: seq<Substitution> :=
    [ Substitution("\U{2705}", "+"),
      Substitution("\U{274C}", "-"),
      Substitution("'", "'"),
      Substitution(QuoteKey, "\"") ]

  /** The rest of the as-written table: the letters, then the curly
      apostrophes of lines 93-94, which are new keys there. */
  const AsWrittenTail: seq<Substitution> :=
    LetterTable + [ Substitution("\U{2019}", "'"), Substitution("\U{2018}", "'") ]

  /** The table as the file spells it. */
  const AsWrittenTable: seq<Substitution> := AsWrittenHead + AsWrittenTail

  /** The table with typographic quotes at lines 56-59 and 89, which is what the
      entries evidently stand for: both curly apostrophes map to `'` and both
      curly double quotes to `"`. Lines 93-94 then repeat existing keys. */
  const CorrectedTable: seq<Substitution> := MarkAndQuoteTable + LetterTable

  /** The check mark, the cross and the four typographic quotes. */
  const MarkAndQuoteTable: seq<Substitution> :=
    [ Substitution("\U{2705}", "+"),
      Substitution("\U{274C}", "-"),
      Substitution("\U{2018}", "'"),
      Substitution("\U{2019}", "'"),
      Substitution("\U{201C}", "\""),
      Substitution("\U{201D}", "\"") ]

  /** `clean_text_for_pdf` with the table as the file spells it (app.py:50-105). */
  function CleanAsWritten(s: string): (r: string)
    ensures AllAscii(r)
  {
    Clean(AsWrittenTable, s)
  }

  /** `clean_text_for_pdf` with the corrected table, the sanitiser the layout uses. */
  function CleanTextForPdf(s: string): (r: string)
    ensures AllAscii(r)
  {
    Clean(CorrectedTable, s)
  }

  /* ---------------------------------------------------------------------- */
  /* str.replace                                                              */

  /** A character of `k` that `s` lacks rules out every occurrence of `k`. */
  lemma {:induction false} ForeignCharNotOccurs(k: string, s: string, j: nat)
    requires j < |k| && k[j] !in s
    ensures !Occurs(k, s)
    decreases |s|
  {
    if |k| <= |s| {
      assert s[..|k|][j] == s[j];
      if |s| > 0 {
        assert forall c :: c in s[1..] ==> c in s;
        ForeignCharNotOccurs(k, s[1..], j);
      }
    }
  }

  /** Replacing a key that does not occur changes nothing. */
  lemma {:induction false} ReplaceAbsent(s: string, k: string, v: string)
    requires !Occurs(k, s)
    ensures Replace(s, k, v) == s
    decreases |s|
  {
    if |k| <= |s| {
      ReplaceAbsent(s[1..], k, v);
    }
  }

  /** Replacing a key by itself changes nothing. */
  lemma {:induction false} ReplaceSelf(s: string, k: string)
    ensures Replace(s, k, k) == s
    decreases |s|
  {
    if k == [] {
      InsertAroundEmpty(s);
    } else if |s| >= |k| {
      if s[..|k|] == k {
        ReplaceSelf(s[|k|..], k);
        assert s == s[..|k|] + s[|k|..];
      } else {
        ReplaceSelf(s[1..], k);
      }
    }
  }

  lemma {:induction false} InsertAroundEmpty(s: string)
    ensures InsertAround(s, "") == s
  {
    if s != [] {
      InsertAroundEmpty(s[1..]);
    }
  }

  /* ---------------------------------------------------------------------- */
  /* Characters the table never touches keep their order                      */

  /** The characters of `s` that belong to `keep`, in their order in `s`. */
  function Project(s: string, keep: set<char>): string
    decreases |s|
  {
    if s == [] then []
    else (if s[0] in keep then [s[0]] else []) + Project(s[1..], keep)
  }

  lemma {:induction false} ProjectAppend(a: string, b: string, keep: set<char>)
    ensures Project(a + b, keep) == Project(a, keep) + Project(b, keep)
    decreases |a|
  {
    if a == [] {
      assert a + b == b;
    } else {
      var ab := a + b;
      var head := if a[0] in keep then [a[0]] else [];
      assert ab[0] == a[0];
      assert ab[1..] == a[1..] + b;
      ProjectAppend(a[1..], b, keep);
      calc {
        Project(ab, keep);
        head + Project(a[1..] + b, keep);
        head + (Project(a[1..], keep) + Project(b, keep));
        (head + Project(a[1..], keep)) + Project(b, keep);
      }
    }
  }

  lemma {:induction false} ProjectDisjoint(s: string, keep: set<char>)
    requires forall c :: c in keep ==> c !in s
    ensures Project(s, keep) == []
    decreases |s|
  {
    if s != [] {
      assert s[0] in s;
      assert forall c :: c in s[1..] ==> c in s;
      ProjectDisjoint(s[1..], keep);
    }
  }

  /** Characters that appear in neither `pat` nor `rep` survive `s.replace(pat, rep)`, in order. */
  lemma {:induction false} ReplaceKeepsOthers(s: string, pat: string, rep: string, keep: set<char>)
    requires forall c :: c in keep ==> c !in pat && c !in rep
    ensures Project(Replace(s, pat, rep), keep) == Project(s, keep)
    decreases |s|, 1
  {
    if pat == [] {
      if s != [] {
        KeepsOthersInsertStep(s, rep, keep);
      } else {
        ProjectDisjoint(rep, keep);
      }
    } else if |s| >= |pat| {
      if s[..|pat|] == pat {
        KeepsOthersMatchStep(s, pat, rep, keep);
      } else {
        KeepsOthersMissStep(s, pat, rep, keep);
      }
    }
  }

  lemma {:induction false} KeepsOthersInsertStep(s: string, rep: string, keep: set<char>)
    requires s != [] && forall c :: c in keep ==> c !in rep
    ensures Project(Replace(s, [], rep), keep) == Project(s, keep)
    decreases |s|, 0
  {
    ProjectDisjoint(rep, keep);
    ReplaceKeepsOthers(s[1..], [], rep, keep);
    assert Replace(s, [], rep) == rep + [s[0]] + InsertAround(s[1..], rep);
    ProjectAppend(rep + [s[0]], InsertAround(s[1..], rep), keep);
    ProjectAppend(rep, [s[0]], keep);
  }

  lemma {:induction false} KeepsOthersMatchStep(s: string, pat: string, rep: string, keep: set<char>)
    requires pat != [] && |s| >= |pat| && s[..|pat|] == pat
    requires forall c :: c in keep ==> c !in pat && c !in rep
    ensures Project(Replace(s, pat, rep), keep) == Project(s, keep)
    decreases |s|, 0
  {
    ProjectDisjoint(rep, keep);
    var tail := s[|pat|..];
    ReplaceKeepsOthers(tail, pat, rep, keep);
    assert Replace(s, pat, rep) == rep + Replace(tail, pat, rep);
    ProjectAppend(rep, Replace(tail, pat, rep), keep);
    assert s == pat + tail;
    ProjectAppend(pat, tail, keep);
    ProjectDisjoint(pat, keep);
  }

  lemma {:induction false} KeepsOthersMissStep(s: string, pat: string, rep: string, keep: set<char>)
    requires pat != [] && |s| >= |pat| && s[..|pat|] != pat
    requires forall c :: c in keep ==> c !in pat && c !in rep
    ensures Project(Replace(s, pat, rep), keep) == Project(s, keep)
    decreases |s|, 0
  {
    ReplaceKeepsOthers(s[1..], pat, rep, keep);
    assert Replace(s, pat, rep) == [s[0]] + Replace(s[1..], pat, rep);
    ProjectAppend([s[0]], Replace(s[1..], pat, rep), keep);
    assert s == [s[0]] + s[1..];
  }

  /** `keep` meets no key and no value of `table`. */
  predicate Untouched(table: seq<Substitution>, keep: set<char>) {
    forall e, c :: e in table && c in keep ==> c !in e.key && c !in e.value
  }

  lemma {:induction false} ReplaceAllKeepsOthers(table: seq<Substitution>, s: string, keep: set<char>)
    requires Untouched(table, keep)
    ensures Project(ReplaceAll(table, s), keep) == Project(s, keep)
    decreases |table|
  {
    if table != [] {
      assert table[0] in table;
      ReplaceKeepsOthers(s, table[0].key, table[0].value, keep);
      assert forall x :: x in table[1..] ==> x in table;
      ReplaceAllKeepsOthers(table[1..], Replace(s, table[0].key, table[0].value), keep);
    }
  }

  lemma {:induction false} BlankKeepsAscii(s: string, keep: set<char>)
    requires forall c :: c in keep ==> IsAscii(c) && c != ' '
    ensures Project(BlankNonAscii(s), keep) == Project(s, keep)
    decreases |s|
  {
    if s != [] {
      BlankKeepsAscii(s[1..], keep);
      assert BlankNonAscii(s)[1..] == BlankNonAscii(s[1..]);
    }
  }

  /** Order preservation: ASCII characters other than the space that no key
      and no value mentions come out of the sanitiser exactly as they went in,
      in the same order. */
  lemma CleanKeepsOthers(table: seq<Substitution>, s: string, keep: set<char>)
    requires Untouched(table, keep)
    requires forall c :: c in keep ==> IsAscii(c) && c != ' '
    ensures Project(Clean(table, s), keep) == Project(s, keep)
  {
    ReplaceAllKeepsOthers(table, s, keep);
    BlankKeepsAscii(ReplaceAll(table, s), keep);
  }

  lemma {:induction false} ProjectEmptyAbsent(s: string, keep: set<char>, c: char)
    requires Project(s, keep) == [] && c in keep
    ensures c !in s
    decreases |s|
  {
    if s != [] {
      ProjectEmptyAbsent(s[1..], keep, c);
      assert s == [s[0]] + s[1..];
    }
  }

  lemma UntouchedAppend(a: seq<Substitution>, b: seq<Substitution>, keep: set<char>)
    requires Untouched(a, keep) && Untouched(b, keep)
    ensures Untouched(a + b, keep)
  {
    assert forall e :: e in a + b ==> e in a || e in b;
  }

  lemma LowerCaseTableLeavesP()
    ensures Untouched(LowerCaseTable, {'P'})
  {
    LowerCaseTableKeys();
    var t := LowerCaseTable;
    forall i | 0 <= i < |t|
      ensures 'P' !in t[i].value
    {
    }
    forall e | e in t
      ensures 'P' !in e.key && 'P' !in e.value
    {
      assert SingleForeignKey(e);
      var i :| 0 <= i < |t| && t[i] == e;
    }
  }

  lemma UpperCaseTableLeavesP()
    ensures Untouched(UpperCaseTable, {'P'})
  {
    UpperCaseTableKeys();
    var t := UpperCaseTable;
    forall i | 0 <= i < |t|
      ensures 'P' !in t[i].value
    {
    }
    forall e | e in t
      ensures 'P' !in e.key && 'P' !in e.value
    {
      assert SingleForeignKey(e);
      var i :| 0 <= i < |t| && t[i] == e;
    }
  }

  lemma SymbolTableLeavesP()
    ensures Untouched(SymbolTable, {'P'})
  {
    SymbolTableKeys();
    var t := SymbolTable;
    forall i | 0 <= i < |t|
      ensures 'P' !in t[i].value
    {
    }
    forall e | e in t
      ensures 'P' !in e.key && 'P' !in e.value
    {
      assert SingleForeignKey(e);
      var i :| 0 <= i < |t| && t[i] == e;
    }
  }

  lemma MarkAndQuoteTableLeavesP()
    ensures Untouched(MarkAndQuoteTable, {'P'})
  {
    var t := MarkAndQuoteTable;
    forall i | 0 <= i < |t|
      ensures 'P' !in t[i].key && 'P' !in t[i].value
    {
    }
    forall e | e in t
      ensures 'P' !in e.key && 'P' !in e.value
    {
      var i :| 0 <= i < |t| && t[i] == e;
    }
  }

  /** No key and no value of the corrected table holds a capital P. */
  lemma CorrectedTableLeavesP()
    ensures Untouched(CorrectedTable, {'P'})
  {
    LowerCaseTableLeavesP();
    UpperCaseTableLeavesP();
    SymbolTableLeavesP();
    UntouchedAppend(LowerCaseTable, UpperCaseTable, {'P'});
    UntouchedAppend(LowerCaseTable + UpperCaseTable, SymbolTable, {'P'});
    MarkAndQuoteTableLeavesP();
    UntouchedAppend(MarkAndQuoteTable, LetterTable, {'P'});
  }

  /** No key and no value of the table as written holds a capital P either. */
  lemma AsWrittenTableLeavesP()
    ensures Untouched(AsWrittenTable, {'P'})
  {
    var h := AsWrittenHead;
    assert 'P' !in QuoteKey;
    forall i | 0 <= i < |h|
      ensures 'P' !in h[i].key && 'P' !in h[i].value
    {
    }
    forall e | e in h
      ensures 'P' !in e.key && 'P' !in e.value
    {
      var i :| 0 <= i < |h| && h[i] == e;
    }
    var quotes := [ Substitution("\U{2019}", "'"), Substitution("\U{2018}", "'") ];
    forall e | e in quotes
      ensures 'P' !in e.key && 'P' !in e.value
    {
    }
    LowerCaseTableLeavesP();
    UpperCaseTableLeavesP();
    SymbolTableLeavesP();
    UntouchedAppend(LowerCaseTable, UpperCaseTable, {'P'});
    UntouchedAppend(LowerCaseTable + UpperCaseTable, SymbolTable, {'P'});
    UntouchedAppend(LetterTable, quotes, {'P'});
    UntouchedAppend(h, AsWrittenTail, {'P'});
  }

  /* ---------------------------------------------------------------------- */
  /* Idempotence                                                              */

  /** The condition under which cleaning is idempotent: every key either maps
      to itself or holds a character outside ASCII, so it cannot occur in the
      ASCII text a first pass produces. */
  predicate Stable(table: seq<Substitution>) {
    forall e :: e in table ==> e.key == e.value || !AllAscii(e.key)
  }

  /** On ASCII text, a stable table rewrites nothing. */
  lemma {:induction false} ReplaceAllFixesAscii(table: seq<Substitution>, s: string)
    requires Stable(table) && AllAscii(s)
    ensures ReplaceAll(table, s) == s
    decreases |table|
  {
    if table != [] {
      var e := table[0];
      assert e in table;
      if e.key == e.value {
        ReplaceSelf(s, e.key);
      } else {
        var j :| 0 <= j < |e.key| && !IsAscii(e.key[j]);
        ForeignCharNotOccurs(e.key, s, j);
        ReplaceAbsent(s, e.key, e.value);
      }
      assert forall x :: x in table[1..] ==> x in table;
      ReplaceAllFixesAscii(table[1..], s);
    }
  }

  /** With a stable table, ASCII text is a fixed point of the sanitiser. */
  lemma CleanFixesAscii(table: seq<Substitution>, s: string)
    requires Stable(table) && AllAscii(s)
    ensures Clean(table, s) == s
  {
    ReplaceAllFixesAscii(table, s);
  }

  /** Cleaning twice is cleaning once, for any stable table. */
  lemma CleanIdempotent(table: seq<Substitution>, s: string)
    requires Stable(table)
    ensures Clean(table, Clean(table, s)) == Clean(table, s)
  {
    CleanFixesAscii(table, Clean(table, s));
  }

  /** A key of one character outside ASCII. Every such key of both tables lies
      between U+00B0 and U+274C; the bound U+3000 keeps the ideographic space
      that the as-written counterexample below relies on out of the keys. */
  predicate SingleForeignKey(e: Substitution) {
    |e.key| == 1 && 128 <= e.key[0] as int < 0x3000
  }

  lemma LowerCaseTableKeys()
    ensures forall e :: e in LowerCaseTable ==> SingleForeignKey(e)
  {
    var t := LowerCaseTable;
    forall i | 0 <= i < |t|
      ensures SingleForeignKey(t[i])
    {
    }
    forall e | e in t
      ensures SingleForeignKey(e)
    {
      var i :| 0 <= i < |t| && t[i] == e;
    }
  }

  lemma UpperCaseTableKeys()
    ensures forall e :: e in UpperCaseTable ==> SingleForeignKey(e)
  {
    var t := UpperCaseTable;
    forall i | 0 <= i < |t|
      ensures SingleForeignKey(t[i])
    {
    }
    forall e | e in t
      ensures SingleForeignKey(e)
    {
      var i :| 0 <= i < |t| && t[i] == e;
    }
  }

  lemma SymbolTableKeys()
    ensures forall e :: e in SymbolTable ==> SingleForeignKey(e)
  {
    var t := SymbolTable;
    forall i | 0 <= i < |t|
      ensures SingleForeignKey(t[i])
    {
    }
    forall e | e in t
      ensures SingleForeignKey(e)
    {
      var i :| 0 <= i < |t| && t[i] == e;
    }
  }

  lemma LetterTableKeys()
    ensures forall e :: e in LetterTable ==> SingleForeignKey(e)
  {
    LowerCaseTableKeys();
    UpperCaseTableKeys();
    SymbolTableKeys();
  }

  /** Every key of the corrected table is a single non-ASCII character. */
  lemma CorrectedTableStable()
    ensures Stable(CorrectedTable)
  {
    CorrectedTableKeys();
    forall e | e in CorrectedTable
      ensures !AllAscii(e.key)
    {
      assert !IsAscii(e.key[0]);
    }
  }

  /** The sanitiser the rest of the model uses is idempotent. */
  lemma CleanTextForPdfIdempotent(s: string)
    ensures CleanTextForPdf(CleanTextForPdf(s)) == CleanTextForPdf(s)
  {
    CorrectedTableStable();
    CleanIdempotent(CorrectedTable, s);
  }

  /* ---------------------------------------------------------------------- */
  /* Single-character keys: every character is cleaned on its own             */

  /** Every key is one character long, as in the corrected table. */
  predicate SingleCharKeys(table: seq<Substitution>) {
    forall e :: e in table ==> |e.key| == 1
  }

  /** With a one-character key, `str.replace` works on each part of the text separately. */
  /** One step of `str.replace` with a one-character key. */
  lemma ReplaceCharHead(s: string, k: char, v: string)
    requires s != []
    ensures Replace(s, [k], v) == (if s[0] == k then v else [s[0]]) + Replace(s[1..], [k], v)
  {
    assert s[..1] == [s[0]];
  }

  lemma {:induction false} ReplaceCharAppend(a: string, b: string, k: char, v: string)
    ensures Replace(a + b, [k], v) == Replace(a, [k], v) + Replace(b, [k], v)
    decreases |a|
  {
    if a == [] {
      assert a + b == b;
    } else {
      var ab := a + b;
      assert ab[0] == a[0];
      assert ab[1..] == a[1..] + b;
      ReplaceCharAppend(a[1..], b, k, v);
      ReplaceCharHead(ab, k, v);
      ReplaceCharHead(a, k, v);
    }
  }

  lemma {:induction false} ReplaceAllAppendText(table: seq<Substitution>, a: string, b: string)
    requires SingleCharKeys(table)
    ensures ReplaceAll(table, a + b) == ReplaceAll(table, a) + ReplaceAll(table, b)
    decreases |table|
  {
    if table != [] {
      var e := table[0];
      assert e in table;
      assert e.key == [e.key[0]];
      ReplaceCharAppend(a, b, e.key[0], e.value);
      assert forall x :: x in table[1..] ==> x in table;
      ReplaceAllAppendText(table[1..], Replace(a, e.key, e.value), Replace(b, e.key, e.value));
    }
  }

  lemma {:induction false} BlankAppend(a: string, b: string)
    ensures BlankNonAscii(a + b) == BlankNonAscii(a) + BlankNonAscii(b)
    decreases |a|
  {
    if a == [] {
      assert a + b == b;
    } else {
      assert (a + b)[0] == a[0];
      assert (a + b)[1..] == a[1..] + b;
      BlankAppend(a[1..], b);
    }
  }

  /** With one-character keys, cleaning a concatenation cleans each part. */
  lemma CleanAppend(table: seq<Substitution>, a: string, b: string)
    requires SingleCharKeys(table)
    ensures Clean(table, a + b) == Clean(table, a) + Clean(table, b)
  {
    ReplaceAllAppendText(table, a, b);
    BlankAppend(ReplaceAll(table, a), ReplaceAll(table, b));
  }

  /** Order preservation for one-character keys: an ASCII character stays
      exactly where it was between the cleaned text before it and after it. */
  lemma CleanKeepsAsciiInPlace(table: seq<Substitution>, a: string, c: char, b: string)
    requires SingleCharKeys(table) && Stable(table) && IsAscii(c)
    ensures Clean(table, a + [c] + b) == Clean(table, a) + [c] + Clean(table, b)
  {
    CleanAppend(table, a + [c], b);
    CleanAppend(table, a, [c]);
    CleanFixesAscii(table, [c]);
  }

  lemma MarkAndQuoteTableKeys()
    ensures forall e :: e in MarkAndQuoteTable ==> SingleForeignKey(e)
  {
    var t := MarkAndQuoteTable;
    forall i | 0 <= i < |t|
      ensures SingleForeignKey(t[i])
    {
    }
    forall e | e in t
      ensures SingleForeignKey(e)
    {
      var i :| 0 <= i < |t| && t[i] == e;
    }
  }

  /** Every key of the corrected table is a single character outside ASCII. */
  lemma CorrectedTableKeys()
    ensures forall e :: e in CorrectedTable ==> SingleForeignKey(e)
    ensures SingleCharKeys(CorrectedTable)
  {
    MarkAndQuoteTableKeys();
    LetterTableKeys();
  }

  /** The sanitiser the model uses cleans a concatenation part by part. */
  lemma CleanTextForPdfAppend(a: string, b: string)
    ensures CleanTextForPdf(a + b) == CleanTextForPdf(a) + CleanTextForPdf(b)
  {
    CorrectedTableKeys();
    CleanAppend(CorrectedTable, a, b);
  }

  /** Every ASCII character survives the sanitiser the model uses, in place. */
  lemma CleanTextForPdfKeepsAscii(a: string, c: char, b: string)
    requires IsAscii(c)
    ensures CleanTextForPdf(a + [c] + b) == CleanTextForPdf(a) + [c] + CleanTextForPdf(b)
  {
    CorrectedTableKeys();
    CorrectedTableStable();
    CleanKeepsAsciiInPlace(CorrectedTable, a, c, b);
  }

  /** A text that starts with the first key of a table, and is otherwise
      ASCII, comes out with that key's value in front and nothing else changed. */
  lemma LeadingKeyClean(table: seq<Substitution>, k: char, v: string, t: string)
    requires |table| > 0 && table[0] == Substitution([k], v)
    requires Stable(table[1..]) && !IsAscii(k) && AllAscii(v) && AllAscii(t)
    ensures Clean(table, [k] + t) == v + t
  {
    var s := [k] + t;
    assert k !in t;
    assert s[..1] == [k] && s[1..] == t;
    ForeignCharNotOccurs([k], t, 0);
    ReplaceAbsent(t, [k], v);
    assert Replace(s, [k], v) == v + t;
    AsciiConcat(v, t);
    ReplaceAllFixesAscii(table[1..], v + t);
    assert ReplaceAll(table, s) == v + t;
    BlankNonAsciiFixesAscii(v + t);
  }

  lemma AsciiConcat(a: string, b: string)
    requires AllAscii(a) && AllAscii(b)
    ensures AllAscii(a + b)
  {
    forall i | 0 <= i < |a + b|
      ensures IsAscii((a + b)[i])
    {
      if i >= |a| {
        assert (a + b)[i] == b[i - |a|];
      }
    }
  }

  lemma BlankNonAsciiFixesAscii(s: string)
    requires AllAscii(s)
    ensures BlankNonAscii(s) == s
  {
  }

  /** A stable table that starts with the check mark's entry turns the mark
      in front of ASCII text into "+" and leaves the rest alone. */
  lemma StableLeadingKeyClean(table: seq<Substitution>, k: char, v: string, t: string)
    requires Stable(table) && |table| > 0 && table[0] == Substitution([k], v)
    requires !IsAscii(k) && AllAscii(v) && AllAscii(t)
    ensures Clean(table, [k] + t) == v + t
  {
    assert forall e :: e in table[1..] ==> e in table;
    LeadingKeyClean(table, k, v, t);
  }

  /** The check mark in front of ASCII text becomes "+" and nothing else changes. */
  lemma CheckMarkClean(t: string)
    requires AllAscii(t)
    ensures CleanTextForPdf(['\U{2705}'] + t) == "+" + t
  {
    CorrectedTableStable();
    CorrectedTableStartsWithCheckMark();
    StableLeadingKeyClean(CorrectedTable, '\U{2705}', "+", t);
  }

  lemma CorrectedTableStartsWithCheckMark()
    ensures |CorrectedTable| > 0 && CorrectedTable[0] == Substitution(['\U{2705}'], "+")
    ensures !IsAscii('\U{2705}') && AllAscii("+")
  {
  }

  /** An occurrence stays an occurrence when text is put in front. */
  lemma {:induction false} OccursAfterPrefix(k: string, a: string, t: string)
    requires Occurs(k, t)
    ensures Occurs(k, a + t)
    decreases |a|
  {
    if a == [] {
      assert a + t == t;
    } else {
      OccursAfterPrefix(k, a[1..], t);
      assert (a + t)[1..] == a[1..] + t;
    }
  }

  /** A string occurs at the end of anything it is appended to. */
  lemma {:induction false} OccursAtEnd(k: string, a: string)
    ensures Occurs(k, a + k)
    decreases |a|
  {
    if a == [] {
      assert (a + k)[..|k|] == k;
    } else {
      OccursAtEnd(k, a[1..]);
      assert (a + k)[1..] == a[1..] + k;
    }
  }

  /* ---------------------------------------------------------------------- */
  /* Occurrences that survive a replacement                                   */

  /** A text whose first character does not start the key loses nothing at its head. */
  lemma ReplaceSkipsHead(c: char, t: string, pat: string, rep: string)
    requires pat != [] && c != pat[0]
    ensures Replace([c] + t, pat, rep) == [c] + Replace(t, pat, rep)
  {
    var s := [c] + t;
    assert s[1..] == t;
    if |s| >= |pat| {
      assert s[..|pat|][0] == c;
    }
  }

  /** Replacing a non-empty ASCII key by ASCII text keeps ASCII text ASCII. */
  lemma {:induction false} ReplaceAscii(s: string, pat: string, rep: string)
    requires pat != [] && AllAscii(s) && AllAscii(rep)
    ensures AllAscii(Replace(s, pat, rep))
    decreases |s|
  {
    if |s| >= |pat| {
      if s[..|pat|] == pat {
        ReplaceAscii(s[|pat|..], pat, rep);
        AsciiConcat(rep, Replace(s[|pat|..], pat, rep));
      } else {
        ReplaceAscii(s[1..], pat, rep);
        AsciiConcat([s[0]], Replace(s[1..], pat, rep));
      }
    }
  }

  /** None of the characters of `k` occurs in `pat`. */
  predicate Avoids(k: string, pat: string) {
    forall i :: 0 <= i < |k| ==> k[i] !in pat
  }

  /** A prefix made of characters the key lacks comes through a replacement unchanged. */
  lemma {:induction false} ReplaceKeepsPrefix(s: string, m: nat, pat: string, rep: string)
    requires pat != [] && m <= |s| && forall i :: 0 <= i < m ==> s[i] !in pat
    ensures Replace(s, pat, rep) == s[..m] + Replace(s[m..], pat, rep)
    decreases m
  {
    if m == 0 {
      assert s[..0] == [] && s[0..] == s;
    } else {
      var t := s[1..];
      TailAvoidsKey(s, m, pat);
      ReplaceKeepsPrefix(t, m - 1, pat, rep);
      TailSlices(s, m);
      ReplaceStepForeign(s, pat, rep);
      Regroup([s[0]], Replace(t, pat, rep), s[1..m], Replace(s[m..], pat, rep),
        Replace(s, pat, rep), s[..m]);
    }
  }

  /** The first `m` characters avoid the key, so the `m - 1` after the first do. */
  lemma TailAvoidsKey(s: string, m: nat, pat: string)
    requires 0 < m <= |s| && forall i :: 0 <= i < m ==> s[i] !in pat
    ensures forall i :: 0 <= i < m - 1 ==> s[1..][i] !in pat
  {
    forall i | 0 <= i < m - 1
      ensures s[1..][i] !in pat
    {
      assert s[1..][i] == s[i + 1];
    }
  }

  /** One step of `str.replace` where the text starts with a character the key lacks. */
  lemma ReplaceStepForeign(s: string, pat: string, rep: string)
    requires pat != [] && s != [] && s[0] !in pat
    ensures Replace(s, pat, rep) == [s[0]] + Replace(s[1..], pat, rep)
  {
    assert pat[0] in pat;
    ReplaceSkipsHead(s[0], s[1..], pat, rep);
    assert s == [s[0]] + s[1..];
  }

  /** How the slices of `s` after its first character line up with those of `s`. */
  lemma TailSlices(s: string, m: nat)
    requires 0 < m <= |s|
    ensures s[1..][..m - 1] == s[1..m] && s[1..][m - 1..] == s[m..]
    ensures s[..m] == [s[0]] + s[1..m]
  {
  }

  /** How the slices of `s` after its first `n` characters line up with those of `s`. */
  lemma DropSlices(s: string, n: nat, m: nat)
    requires n <= m <= |s|
    ensures s[n..][..m - n] == s[n..m] && s[n..][m - n..] == s[m..]
    ensures s[..m][..n] == s[..n] && s[..m][n..] == s[n..m]
  {
  }

  lemma OccursAtStart(k: string, b: string)
    ensures Occurs(k, k + b)
  {
    assert (k + b)[..|k|] == k;
  }

  /** An occurrence of `k` does not start at any of the first `m` characters
      when none of them is `k`'s first character, so it lies after them. */
  lemma {:induction false} OccursDrop(k: string, s: string, m: nat)
    requires k != [] && Occurs(k, s) && m <= |s|
    requires forall i :: 0 <= i < m ==> s[i] != k[0]
    ensures Occurs(k, s[m..])
    decreases m
  {
    if m > 0 {
      assert s[..|k|][0] == s[0];
      assert Occurs(k, s[1..]);
      OccursDrop(k, s[1..], m - 1);
      assert s[1..][m - 1..] == s[m..];
    }
  }

  /** An occurrence of `k` survives replacing a key with none of its characters. */
  lemma {:induction false} ReplaceKeepsOccurrence(k: string, s: string, pat: string, rep: string)
    requires pat != [] && Avoids(k, pat)
    requires Occurs(k, s)
    ensures Occurs(k, Replace(s, pat, rep))
    decreases |s|
  {
    if k == [] {
      assert Replace(s, pat, rep)[..0] == k;
    } else if s[..|k|] == k {
      forall i | 0 <= i < |k|
        ensures s[i] !in pat
      {
        assert s[i] == k[i];
      }
      ReplaceKeepsPrefix(s, |k|, pat, rep);
      OccursAtStart(k, Replace(s[|k|..], pat, rep));
    } else if |s| >= |pat| {
      assert k[0] !in pat;
      if s[..|pat|] == pat {
        forall i | 0 <= i < |pat|
          ensures s[i] != k[0]
        {
          assert s[i] == pat[i];
        }
        OccursDrop(k, s, |pat|);
        ReplaceKeepsOccurrence(k, s[|pat|..], pat, rep);
        OccursAfterPrefix(k, rep, Replace(s[|pat|..], pat, rep));
      } else {
        ReplaceKeepsOccurrence(k, s[1..], pat, rep);
        OccursAfterPrefix(k, [s[0]], Replace(s[1..], pat, rep));
      }
    }
  }

  /* ---------------------------------------------------------------------- */
  /* The table as written                                                     */

  /** A table that starts with a foreign mark turned into "+", a second foreign
      key, an identity entry and one more key not starting with "+", followed by
      foreign keys only, turns the mark in front of ASCII text into "+" and
      rewrites the rest with the fourth entry alone. */
  lemma {:induction false} HeadTailOnMark(head: seq<Substitution>, tail: seq<Substitution>, k: char, t: string)
    requires |head| == 4 && head[0] == Substitution([k], "+") && !IsAscii(k)
    requires SingleForeignKey(head[1]) && head[2].key == head[2].value
    requires head[3].key != [] && head[3].key[0] != '+' && AllAscii(head[3].value)
    requires forall e :: e in tail ==> SingleForeignKey(e)
    requires AllAscii(t)
    ensures ReplaceAll(head + tail, [k] + t) == "+" + Replace(t, head[3].key, head[3].value)
  {
    var s0 := [k] + t;
    assert k !in t;
    assert s0[..1] == [k] && s0[1..] == t;
    ForeignCharNotOccurs([k], t, 0);
    ReplaceAbsent(t, [k], "+");
    var s1 := Replace(s0, [k], "+");
    assert s1 == "+" + t;
    AsciiConcat("+", t);
    assert head[1].key[0] !in s1;
    ForeignCharNotOccurs(head[1].key, s1, 0);
    ReplaceAbsent(s1, head[1].key, head[1].value);
    ReplaceSelf(s1, head[2].key);
    var s4 := Replace(s1, head[3].key, head[3].value);
    ReplaceSkipsHead('+', t, head[3].key, head[3].value);
    assert ReplaceAll(head, s0) == s4 by {
      assert head[1..][0] == head[1] && head[1..][1..] == head[2..];
      assert head[2..][0] == head[2] && head[2..][1..] == head[3..];
      assert head[3..][0] == head[3] && head[3..][1..] == [];
      calc {
        ReplaceAll(head, s0);
        ReplaceAll(head[1..], s1);
        ReplaceAll(head[2..], Replace(s1, head[1].key, head[1].value));
        ReplaceAll(head[2..], s1);
        ReplaceAll(head[3..], Replace(s1, head[2].key, head[2].value));
        ReplaceAll(head[3..], s1);
        ReplaceAll([], s4);
      }
    }
    ReplaceAscii(t, head[3].key, head[3].value);
    AsciiConcat("+", Replace(t, head[3].key, head[3].value));
    ReplaceAllAppend(head, tail, s0);
    forall e | e in tail
      ensures e.key == e.value || !AllAscii(e.key)
    {
      assert !IsAscii(e.key[0]);
    }
    ReplaceAllFixesAscii(tail, s4);
  }

  /** A table of two foreign keys, an identity entry, a key that does not occur
      in the ASCII text `t`, and then only foreign keys, leaves `t` alone. */
  lemma {:induction false} HeadTailLeavesAscii(head: seq<Substitution>, tail: seq<Substitution>, t: string)
    requires |head| == 4
    requires SingleForeignKey(head[0]) && SingleForeignKey(head[1])
    requires head[2].key == head[2].value && !Occurs(head[3].key, t)
    requires forall e :: e in tail ==> SingleForeignKey(e)
    requires AllAscii(t)
    ensures ReplaceAll(head + tail, t) == t
  {
    assert forall i :: 0 <= i < |t| ==> IsAscii(t[i]) || t[i] as int >= 0x3000;
    ForeignKeysAbsent(head[..2], t);
    ForeignKeysAbsent(tail, t);
    assert head == head[..2] + [head[2], head[3]];
    forall e | e in head + tail
      ensures e.key == e.value || !Occurs(e.key, t)
    {
      assert e in head[..2] || e == head[2] || e == head[3] || e in tail;
    }
    ReplaceAllUnchanged(head + tail, t);
  }

  /** With the table as written, ASCII text that does not hold the quote key
      comes out unchanged, so plain text such as "Hall propre" passes through. */
  lemma AsWrittenFixesAsciiWithoutQuoteKey(t: string)
    requires AllAscii(t) && !Occurs(QuoteKey, t)
    ensures CleanAsWritten(t) == t
  {
    AsWrittenHeadKeys();
    AsWrittenTailKeys();
    HeadTailLeavesAscii(AsWrittenHead, AsWrittenTail, t);
  }

  /** A key that the character `s[m]` is not part of cannot match across it:
      the replacement splits at `m`. */
  lemma {:induction false} ReplaceAtBarrier(s: string, m: nat, pat: string, rep: string)
    requires pat != [] && m < |s| && s[m] !in pat
    ensures Replace(s, pat, rep) == Replace(s[..m], pat, rep) + Replace(s[m..], pat, rep)
    decreases |s|, 1
  {
    var n := |pat|;
    if m == 0 || |s| < n {
      BarrierBase(s, m, pat, rep);
    } else if m >= n && s[..n] == pat {
      BarrierMatch(s, m, pat, rep);
    } else {
      BarrierMiss(s, m, pat, rep);
    }
  }

  /** `ReplaceAtBarrier` when the key matches at the start: it lies wholly before `m`. */
  lemma {:induction false} BarrierMatch(s: string, m: nat, pat: string, rep: string)
    requires pat != [] && |pat| <= m < |s| && s[m] !in pat && s[..|pat|] == pat
    ensures Replace(s, pat, rep) == Replace(s[..m], pat, rep) + Replace(s[m..], pat, rep)
    decreases |s|, 0
  {
    var n := |pat|;
    assert s[n..][m - n] == s[m];
    ReplaceAtBarrier(s[n..], m - n, pat, rep);
    DropSlices(s, n, m);
    BarrierAfterMatch(s, m, pat, rep);
  }

  /** `ReplaceAtBarrier` when the key does not match at the start. */
  lemma {:induction false} BarrierMiss(s: string, m: nat, pat: string, rep: string)
    requires pat != [] && |pat| <= |s| && 0 < m < |s| && s[m] !in pat
    requires m < |pat| || s[..|pat|] != pat
    ensures Replace(s, pat, rep) == Replace(s[..m], pat, rep) + Replace(s[m..], pat, rep)
    decreases |s|, 0
  {
    var t := s[1..];
    assert t[m - 1] == s[m];
    ReplaceAtBarrier(t, m - 1, pat, rep);
    TailSlices(s, m);
    if m < |pat| {
      NoMatchOverBarrier(s, m, pat);
      BarrierMissShort(s, m, pat, rep);
    } else {
      BarrierMissLong(s, m, pat, rep);
    }
  }

  /** `ReplaceAtBarrier` when the barrier is the first character or the text is
      shorter than the key. */
  lemma BarrierBase(s: string, m: nat, pat: string, rep: string)
    requires pat != [] && m < |s| && (m == 0 || |s| < |pat|)
    ensures Replace(s, pat, rep) == Replace(s[..m], pat, rep) + Replace(s[m..], pat, rep)
  {
    if m == 0 {
      assert s[..0] == [] && s[0..] == s;
    } else {
      assert s[..m] + s[m..] == s;
    }
  }

  /** The step of `ReplaceAtBarrier` where the key matches at the start, wholly before `m`. */
  lemma BarrierAfterMatch(s: string, m: nat, pat: string, rep: string)
    requires pat != [] && |pat| <= m < |s| && s[..|pat|] == pat
    requires Replace(s[|pat|..], pat, rep) == Replace(s[|pat|..m], pat, rep) + Replace(s[m..], pat, rep)
    ensures Replace(s, pat, rep) == Replace(s[..m], pat, rep) + Replace(s[m..], pat, rep)
  {
    var n := |pat|;
    DropSlices(s, n, m);
    ReplaceMatchStep(s, pat, rep);
    ReplaceMatchStep(s[..m], pat, rep);
    Regroup(rep, Replace(s[n..], pat, rep), Replace(s[n..m], pat, rep), Replace(s[m..], pat, rep),
      Replace(s, pat, rep), Replace(s[..m], pat, rep));
  }

  /** One step of `str.replace` where the key matches at the start. */
  lemma ReplaceMatchStep(s: string, pat: string, rep: string)
    requires pat != [] && |pat| <= |s| && s[..|pat|] == pat
    ensures Replace(s, pat, rep) == rep + Replace(s[|pat|..], pat, rep)
  {
  }

  /** The step of `ReplaceAtBarrier` where the key does not match at the start
      and the barrier lies within the key's length. */
  lemma BarrierMissShort(s: string, m: nat, pat: string, rep: string)
    requires pat != [] && |pat| <= |s| && 0 < m < |pat| && s[..|pat|] != pat
    requires Replace(s[1..], pat, rep) == Replace(s[1..m], pat, rep) + Replace(s[m..], pat, rep)
    ensures Replace(s, pat, rep) == Replace(s[..m], pat, rep) + Replace(s[m..], pat, rep)
  {
    ReplaceMissStep(s, pat, rep);
    MissBeforeShortPrefix(s, m, pat, rep);
    Regroup([s[0]], Replace(s[1..], pat, rep), Replace(s[1..m], pat, rep), Replace(s[m..], pat, rep),
      Replace(s, pat, rep), Replace(s[..m], pat, rep));
  }

  /** A prefix shorter than the key is left as it is. */
  lemma MissBeforeShortPrefix(s: string, m: nat, pat: string, rep: string)
    requires 0 < m < |pat| && m < |s|
    ensures Replace(s[..m], pat, rep) == [s[0]] + Replace(s[1..m], pat, rep)
  {
    assert s[..m] == [s[0]] + s[1..m];
  }

  /** The step of `ReplaceAtBarrier` where the key does not match at the start
      and the barrier lies beyond the key's length. */
  lemma BarrierMissLong(s: string, m: nat, pat: string, rep: string)
    requires pat != [] && |pat| <= m < |s| && s[..|pat|] != pat
    requires Replace(s[1..], pat, rep) == Replace(s[1..m], pat, rep) + Replace(s[m..], pat, rep)
    ensures Replace(s, pat, rep) == Replace(s[..m], pat, rep) + Replace(s[m..], pat, rep)
  {
    ReplaceMissStep(s, pat, rep);
    MissBeforeLongPrefix(s, m, pat, rep);
    Regroup([s[0]], Replace(s[1..], pat, rep), Replace(s[1..m], pat, rep), Replace(s[m..], pat, rep),
      Replace(s, pat, rep), Replace(s[..m], pat, rep));
  }

  /** Regrouping a front part in front of a split text. */
  lemma Regroup(f: string, x: string, y: string, z: string, whole: string, front: string)
    requires whole == f + x && x == y + z && front == f + y
    ensures whole == front + z
  {
    assert f + (y + z) == (f + y) + z;
  }

  /** The prefix before the barrier is at least as long as the key and starts
      where the whole text does, so it misses the key too. */
  lemma MissBeforeLongPrefix(s: string, m: nat, pat: string, rep: string)
    requires pat != [] && |pat| <= m < |s| && s[..|pat|] != pat
    ensures Replace(s[..m], pat, rep) == [s[0]] + Replace(s[1..m], pat, rep)
  {
    var p := s[..m];
    assert p[1..] == s[1..m] && p[0] == s[0];
    assert p[..|pat|] == s[..|pat|];
    ReplaceMissStep(p, pat, rep);
  }

  /** One step of `str.replace` where the key does not match at the start. */
  lemma ReplaceMissStep(s: string, pat: string, rep: string)
    requires pat != [] && |pat| <= |s| && s[..|pat|] != pat
    ensures Replace(s, pat, rep) == [s[0]] + Replace(s[1..], pat, rep)
  {
  }

  /** A key that starts before `m` and reaches past it would contain `s[m]`. */
  lemma NoMatchOverBarrier(s: string, m: nat, pat: string)
    requires m < |pat| <= |s| && s[m] !in pat
    ensures s[..|pat|] != pat
  {
    assert s[..|pat|][m] == s[m];
    assert pat[m] in pat;
  }

  /** A character that is not part of the key stays in place between the
      replaced text before it and after it. */
  lemma ReplaceAround(a: string, c: char, b: string, pat: string, rep: string)
    requires pat != [] && c !in pat
    ensures Replace(a + [c] + b, pat, rep) == Replace(a, pat, rep) + [c] + Replace(b, pat, rep)
  {
    var s, w := a + [c] + b, [c] + b;
    assert s[..|a|] == a && s[|a|..] == w;
    ReplaceAtBarrier(s, |a|, pat, rep);
    assert pat[0] in pat;
    ReplaceSkipsHead(c, b, pat, rep);
    assert Replace(s, pat, rep) == Replace(a, pat, rep) + Replace(w, pat, rep);
  }

  /** No key of `table` is empty or contains `c`. */
  predicate KeysAvoid(table: seq<Substitution>, c: char) {
    forall e :: e in table ==> e.key != [] && c !in e.key
  }

  /** `ReplaceAround` for every entry of a table in turn. */
  lemma {:induction false} ReplaceAllAround(table: seq<Substitution>, a: string, c: char, b: string)
    requires KeysAvoid(table, c)
    ensures ReplaceAll(table, a + [c] + b) == ReplaceAll(table, a) + [c] + ReplaceAll(table, b)
    decreases |table|
  {
    if table != [] {
      var e := table[0];
      assert e in table;
      ReplaceAround(a, c, b, e.key, e.value);
      assert forall x :: x in table[1..] ==> x in table;
      ReplaceAllAround(table[1..], Replace(a, e.key, e.value), c, Replace(b, e.key, e.value));
    }
  }

  /** Order preservation for any table whose keys avoid the ASCII character `c`,
      whatever their length. */
  lemma CleanAround(table: seq<Substitution>, a: string, c: char, b: string)
    requires KeysAvoid(table, c) && IsAscii(c)
    ensures Clean(table, a + [c] + b) == Clean(table, a) + [c] + Clean(table, b)
  {
    var ra, rb := ReplaceAll(table, a), ReplaceAll(table, b);
    ReplaceAllAround(table, a, c, b);
    BlankAppend(ra + [c], rb);
    BlankAppend(ra, [c]);
  }

  /** The keys of a table shaped like the one as written avoid an ASCII
      character that is not part of its third and fourth keys. */
  lemma {:induction false} HeadTailKeysAvoid(head: seq<Substitution>, tail: seq<Substitution>, c: char)
    requires |head| == 4 && IsAscii(c)
    requires SingleForeignKey(head[0]) && SingleForeignKey(head[1])
    requires head[2].key != [] && c !in head[2].key
    requires head[3].key != [] && c !in head[3].key
    requires forall e :: e in tail ==> SingleForeignKey(e)
    ensures KeysAvoid(head + tail, c)
  {
    assert head == head[..2] + [head[2], head[3]];
    forall e | e in head + tail
      ensures e.key != [] && c !in e.key
    {
      if e in head[..2] || e in tail {
        assert SingleForeignKey(e);
        assert e.key == [e.key[0]];
      } else {
        assert e == head[2] || e == head[3];
      }
    }
  }

  /** With the table as written, an ASCII character that is not part of the
      quote key (so neither `:`, a space, `'`, `"`, `,` nor a line feed) stays
      exactly where it was between the cleaned text before it and after it. */
  lemma AsWrittenKeepsAsciiInPlace(a: string, c: char, b: string)
    requires IsAscii(c) && c !in QuoteKey
    ensures CleanAsWritten(a + [c] + b) == CleanAsWritten(a) + [c] + CleanAsWritten(b)
  {
    AsWrittenHeadKeys();
    AsWrittenTailKeys();
    assert QuoteKey[2] == '\'';
    HeadTailKeysAvoid(AsWrittenHead, AsWrittenTail, c);
    CleanAround(AsWrittenTable, a, c, b);
  }

  /** With the table as written, a check mark in front of ASCII text becomes
      "+", and the rest is rewritten only where it holds the quote key. */
  lemma CheckMarkCleanAsWritten(t: string)
    requires AllAscii(t)
    ensures CleanAsWritten(['\U{2705}'] + t) == "+" + Replace(t, QuoteKey, "\"")
    ensures !Occurs(QuoteKey, t) ==> CleanAsWritten(['\U{2705}'] + t) == "+" + t
  {
    AsWrittenHeadKeys();
    AsWrittenTailKeys();
    QuoteKeyFacts();
    HeadTailOnMark(AsWrittenHead, AsWrittenTail, '\U{2705}', t);
    ReplaceAscii(t, QuoteKey, "\"");
    AsciiConcat("+", Replace(t, QuoteKey, "\""));
    BlankNonAsciiFixesAscii("+" + Replace(t, QuoteKey, "\""));
    if !Occurs(QuoteKey, t) {
      ReplaceAbsent(t, QuoteKey, "\"");
    }
  }

  lemma QuoteKeyFacts()
    ensures QuoteKey != [] && QuoteKey[0] == ':' && AllAscii(QuoteKey) && AllAscii("\"")
    ensures !IsAscii('\U{2705}')
  {
  }

  lemma {:induction false} ReplaceAllAppend(a: seq<Substitution>, b: seq<Substitution>, s: string)
    ensures ReplaceAll(a + b, s) == ReplaceAll(b, ReplaceAll(a, s))
    decreases |a|
  {
    if a != [] {
      assert (a + b)[0] == a[0];
      assert (a + b)[1..] == a[1..] + b;
      ReplaceAllAppend(a[1..], b, Replace(s, a[0].key, a[0].value));
    } else {
      assert a + b == b;
    }
  }

  /** A table none of whose keys occurs in `s` (identity entries aside) leaves `s` alone. */
  lemma {:induction false} ReplaceAllUnchanged(table: seq<Substitution>, s: string)
    requires forall e :: e in table ==> e.key == e.value || !Occurs(e.key, s)
    ensures ReplaceAll(table, s) == s
    decreases |table|
  {
    if table != [] {
      var e := table[0];
      assert e in table;
      if e.key == e.value {
        ReplaceSelf(s, e.key);
      } else {
        ReplaceAbsent(s, e.key, e.value);
      }
      assert forall x :: x in table[1..] ==> x in table;
      ReplaceAllUnchanged(table[1..], s);
    }
  }

  /** The as-written table breaks the idempotence hypothesis: the quote key is
      pure ASCII and is not rewritten to itself. */
  lemma AsWrittenTableNotStable()
    ensures !Stable(AsWrittenTable)
  {
    var e := AsWrittenHead[3];
    assert e in AsWrittenTable;
    assert AllAscii(e.key);
  }

  /** The quote key, minus its last space, followed by a character the table
      does not list (U+3000, the ideographic space). */
  const NotIdempotentInput: string := ": '\"',\n       \U{3000}"

  /** Every key after the quote key is a single foreign character. */
  lemma AsWrittenTailKeys()
    ensures forall e :: e in AsWrittenTail ==> SingleForeignKey(e)
  {
    LetterTableKeys();
    forall e | e in AsWrittenTail
      ensures SingleForeignKey(e)
    {
      if e !in LetterTable {
      }
    }
  }

  lemma AsWrittenHeadKeys()
    ensures SingleForeignKey(AsWrittenHead[0]) && SingleForeignKey(AsWrittenHead[1])
    ensures AsWrittenHead[0] == Substitution(['\U{2705}'], "+")
    ensures AsWrittenHead[2] == Substitution("'", "'")
    ensures AsWrittenHead[3] == Substitution(QuoteKey, "\"")
  {
  }

  /** Text made of ASCII and of characters from U+3000 on contains no single
      foreign key. */
  lemma {:induction false} ForeignKeysAbsent(table: seq<Substitution>, x: string)
    requires forall e :: e in table ==> SingleForeignKey(e)
    requires forall i :: 0 <= i < |x| ==> IsAscii(x[i]) || x[i] as int >= 0x3000
    ensures forall e :: e in table ==> !Occurs(e.key, x)
  {
    forall e | e in table
      ensures !Occurs(e.key, x)
    {
      assert SingleForeignKey(e);
      assert e.key[0] !in x;
      ForeignCharNotOccurs(e.key, x, 0);
    }
  }

  /** A key as long as the text, and different from it, does not occur in it. */
  lemma SameLengthNotOccurs(k: string, s: string)
    requires |k| == |s| && k != s
    ensures !Occurs(k, s)
  {
    assert s[..|k|] == s;
  }

  /** A table of two foreign keys, an identity entry, a key as long as `x` but
      different from it, and then only foreign keys leaves `x` alone when `x`
      is made of ASCII and of characters from U+3000 on. */
  lemma {:induction false} HeadTailLeavesAlone(head: seq<Substitution>, tail: seq<Substitution>, x: string)
    requires |head| == 4
    requires SingleForeignKey(head[0]) && SingleForeignKey(head[1])
    requires head[2].key == head[2].value
    requires |head[3].key| == |x| && head[3].key != x
    requires forall e :: e in tail ==> SingleForeignKey(e)
    requires forall i :: 0 <= i < |x| ==> IsAscii(x[i]) || x[i] as int >= 0x3000
    ensures ReplaceAll(head + tail, x) == x
  {
    ForeignKeysAbsent(head[..2], x);
    ForeignKeysAbsent(tail, x);
    SameLengthNotOccurs(head[3].key, x);
    assert head == head[..2] + [head[2], head[3]];
    forall e | e in head + tail
      ensures e.key == e.value || !Occurs(e.key, x)
    {
      assert e in head[..2] || e == head[2] || e == head[3] || e in tail;
    }
    ReplaceAllUnchanged(head + tail, x);
  }

  /** The final filter turns one trailing foreign character of otherwise ASCII
      text into a space. */
  lemma BlankLastForeign(p: string, c: char)
    requires AllAscii(p) && !IsAscii(c)
    ensures BlankNonAscii(p + [c]) == p + [' ']
  {
    var r := BlankNonAscii(p + [c]);
    assert forall i :: 0 <= i < |p| ==> r[i] == p[i];
  }

  /** First pass, stated for any text that is the quote key with its last
      space replaced by U+3000: no key occurs, and the filter restores the space. */
  lemma {:induction false} AsWrittenFirstPassAt(x: string, q: string)
    requires q == QuoteKey && |q| == 15 && AllAscii(q) && q[14] == ' '
    requires x == q[..14] + ['\U{3000}']
    ensures CleanAsWritten(x) == q
  {
    assert forall i :: 0 <= i < |x| ==> IsAscii(x[i]) || x[i] as int >= 0x3000;
    AsWrittenHeadKeys();
    AsWrittenTailKeys();
    HeadTailLeavesAlone(AsWrittenHead, AsWrittenTail, x);
    BlankLastForeign(q[..14], '\U{3000}');
    assert q == q[..14] + [' '];
  }

  /** First pass over `NotIdempotentInput`: it yields exactly the quote key. */
  lemma AsWrittenFirstPass()
    ensures CleanAsWritten(NotIdempotentInput) == QuoteKey
  {
    AsWrittenFirstPassAt(NotIdempotentInput, QuoteKey);
  }

  /** A table that starts with two foreign keys, an identity entry and then
      `q` itself maps the ASCII text `q` to `"`. */
  lemma {:induction false} AsWrittenHeadOnQuoteKey(head: seq<Substitution>, q: string)
    requires |head| == 4 && q != [] && AllAscii(q)
    requires SingleForeignKey(head[0]) && SingleForeignKey(head[1])
    requires head[2].key == head[2].value && head[3] == Substitution(q, "\"")
    ensures ReplaceAll(head, q) == "\""
  {
    ForeignKeysAbsent(head[..2], q);
    forall e | e in head[..3]
      ensures e.key == e.value || !Occurs(e.key, q)
    {
      assert e in head[..2] || e == head[2];
    }
    ReplaceAllUnchanged(head[..3], q);
    assert head == head[..3] + [head[3]];
    ReplaceAllAppend(head[..3], [head[3]], q);
    ReplaceWhole(q, "\"");
    assert ReplaceAll([head[3]], q) == ReplaceAll([], Replace(q, q, "\""));
  }

  /** Followed by foreign keys only, that head still maps `q` to `"`. */
  lemma {:induction false} HeadTailOnQuoteKey(head: seq<Substitution>, tail: seq<Substitution>, q: string)
    requires |head| == 4 && q != [] && AllAscii(q)
    requires SingleForeignKey(head[0]) && SingleForeignKey(head[1])
    requires head[2].key == head[2].value && head[3] == Substitution(q, "\"")
    requires forall e :: e in tail ==> SingleForeignKey(e)
    ensures ReplaceAll(head + tail, q) == "\""
  {
    AsWrittenHeadOnQuoteKey(head, q);
    ReplaceAllAppend(head, tail, q);
    forall e | e in tail
      ensures e.key == e.value || !AllAscii(e.key)
    {
      assert !IsAscii(e.key[0]);
    }
    ReplaceAllFixesAscii(tail, "\"");
  }

  /** Second pass, stated for any text equal to the quote key: the key matches
      the whole text and nothing after it applies. */
  lemma {:induction false} AsWrittenSecondPassAt(q: string)
    requires q == QuoteKey && AllAscii(q)
    ensures CleanAsWritten(q) == "\""
  {
    AsWrittenHeadKeys();
    AsWrittenTailKeys();
    HeadTailOnQuoteKey(AsWrittenHead, AsWrittenTail, q);
  }

  lemma ReplaceWhole(k: string, v: string)
    requires k != []
    ensures Replace(k, k, v) == v
  {
    assert k[..|k|] == k && k[|k|..] == [];
  }

  lemma AsWrittenSecondPass()
    ensures CleanAsWritten(QuoteKey) == "\""
  {
    AsWrittenSecondPassAt(QuoteKey);
  }

  /** Cleaning `NotIdempotentInput` twice differs from cleaning it once. */
  lemma AsWrittenNotIdempotent()
    ensures CleanAsWritten(CleanAsWritten(NotIdempotentInput)) == "\""
    ensures CleanAsWritten(CleanAsWritten(NotIdempotentInput)) != CleanAsWritten(NotIdempotentInput)
  {
    AsWrittenFirstPass();
    AsWrittenSecondPass();
  }
}

=== FILE: wrappers.dfy ===
/** The optional value the model uses for Python's `None`. */
module Wrappers {

  datatype Option<+T> = None | Some(value: T)
}
